=== FILE: README.md ===
# On-screen display and in-game settings dialog

This project models two small parts of the Citra 3DS emulator.

The first is the OpenGL on-screen display (`RasterFont`). It keeps a list of timed messages. Each message has a kind. A message of a kind other than `Typeless` replaces the earlier message of the same kind. Each frame, the display refreshes the FPS line at most once every 500 ms. It then drops the messages whose deadline has passed and draws the rest, one below the other, using a bitmap font. The font's 95 glyphs of 8×13 pixels are expanded into a texture atlas of 32-bit words when the display starts. The module-level `AddMessage` and `DrawMessage` do nothing unless `show_fps` is set; module initialisation always builds the font and posts an FPS placeholder only when `show_fps` is set.

The second is the Android in-game settings dialog (`RunningSettingDialog`). It shows a main menu of eight buttons and a settings submenu of thirteen rows:
- six preference rows, which control the input overlay;
- seven native rows, which control the emulator core.

Each row is a checkbox, a four-way radio group, a seek bar or a button, and each kind has its own rule for the value it stores. When the dialog is dismissed, it saves:
- only the changed preference rows are written to the preference store and the overlay's static fields;
- the native settings array is sent back only if some entry changed.

| file | module | what it holds |
|---|---|---|
| `machine.dfy` | `Machine` | `u8`/`u32`/`u64`/Java `int` widths, 64-bit wrap-around, Java division, `Option`/`Result` |
| `osd_atlas.dfy` | `OsdAtlas` | font constants, the raster table, the atlas fill and its read-back |
| `osd_text.dfy` | `OsdText` | `DrawText`: the character filter, the vertex layout, the colour channels, the two draw passes |
| `osd_messages.dfy` | `OsdMessages` | `AddMessage` and the expiry sweep |
| `osd_font.dfy` | `OsdFont` | the debug throttle, one frame of `Draw`, the `show_fps` entry points, initialisation |
| `settings_item.dfy` | `SettingsItems` | `SettingsItem`, its codes, and the value rules of the four row views |
| `settings_adapter.dfy` | `SettingsAdapter` | the two menu layouts, `saveSettings`, and session properties |

Clock readings are parameters. Two values come from the display header, which is not part of this model: `Duration::FOREVER` and `Color::BLUE`. They are parameters too (`FpsStyle`). The native settings array is an input of the load. The outputs of the save are:
- the array sent back to the core;
- the preference writes (a map from key to value);
- the overlay fields.

Vertex geometry is abstracted to character cells. A vertex records its column and line, its quad corner and its texture coordinates. The floats the renderer computes follow from these and from the layout size.

## Model

| member | source | states |
|---|---|---|
| Machine.WrapU64 | src/video_core/renderer_opengl/on_screen_display.cpp:336 | unsigned 64-bit addition and subtraction keep the residue: the identity in range, one modulus off just outside it |
| Machine.JavaDiv | src/android/app/src/main/java/org/citra/emu/ui/RunningSettingDialog.java:383 | Java integer division truncates toward zero: for a non-negative dividend the quotient times the divisor is at most the dividend and within one divisor of it, and symmetrically below zero |
| OsdAtlas.PixelRow | src/video_core/renderer_opengl/on_screen_display.cpp:218 | the eight pixels of a raster row read with the fixed masks 0x80 down to 0x01, each equal to the atlas fill's shifted-mask test `bits & (1 << (7 - x))` of its column |
| OsdAtlas.PixelMasks | src/video_core/renderer_opengl/on_screen_display.cpp:218 | the shifted single-bit mask of column x is the fixed mask 0x80 >> x, for all eight columns |
| OsdAtlas.PixelRowAt | src/video_core/renderer_opengl/on_screen_display.cpp:218 | pixel x of the row reading is the shifted-mask test of column x, for every column |
| OsdAtlas.PackPixelRow | src/video_core/renderer_opengl/on_screen_display.cpp:218 | reading the pixels of a raster row loses nothing: packing them gives the byte back |
| OsdAtlas.PixelRowOfPack | src/video_core/renderer_opengl/on_screen_display.cpp:218 | every eight-pixel pattern is the reading of the byte it packs to |
| OsdAtlas.AtlasIndexInjective | src/video_core/renderer_opengl/on_screen_display.cpp:219 | no two pixels of the font share an atlas word |
| OsdAtlas.AtlasCoordinates | src/video_core/renderer_opengl/on_screen_display.cpp:214-219 | every word of the atlas belongs to some in-range pixel (scanline, glyph, column) |
| OsdAtlas.CoordinatesOfIndex | src/video_core/renderer_opengl/on_screen_display.cpp:214-219 | a pixel's atlas index is in the buffer, and decomposing it gives the pixel back |
| OsdAtlas.FillAtlas | src/video_core/renderer_opengl/on_screen_display.cpp:214-223 | the three nested loops fill all 8·95·13 words; each word is all ones when its pixel is lit and 0 otherwise |
| OsdAtlas.AtlasWordAt | src/video_core/renderer_opengl/on_screen_display.cpp:214-223 | each atlas word, addressed by index alone, is the pixel that index names |
| OsdAtlas.AtlasRoundTrip | src/video_core/renderer_opengl/on_screen_display.cpp:64-159 | every raster byte of the font table can be read back from the atlas |
| OsdText.SignednessIrrelevant | src/video_core/renderer_opengl/on_screen_display.cpp:271 | the printable-range test gives the same answer whether `char` is signed or unsigned |
| OsdText.Glyphs | src/video_core/renderer_opengl/on_screen_display.cpp:258-272 | the drawn characters are a selection of the text's characters, all printable and not a space or newline |
| OsdText.GlyphsCount | src/video_core/renderer_opengl/on_screen_display.cpp:258-303 | every printable byte other than a space or newline is drawn as often as it occurs in the text, and no other byte is drawn |
| OsdText.GlyphQuad | src/video_core/renderer_opengl/on_screen_display.cpp:274-303 | one printable character becomes two triangles of six vertices in its cell, the first at the bottom-left corner, the fourth repeating the first and the fifth the third; every vertex samples the glyph column `c - 32` of the atlas (u minus the corner offset) |
| OsdText.Layout | src/video_core/renderer_opengl/on_screen_display.cpp:258-305 | six vertices per printable character; the cursor ends one line lower per newline; every vertex's texture column stays inside the atlas and its line stays between the start and the end |
| OsdText.LayoutDecodes | src/video_core/renderer_opengl/on_screen_display.cpp:274-303 | the vertex buffer encodes exactly the printable characters of the text, in order |
| OsdText.LayoutWithinAtlas | src/video_core/renderer_opengl/on_screen_display.cpp:276-301 | every texture coordinate `u` lies between 0 and 95 |
| OsdText.Channels | src/video_core/renderer_opengl/on_screen_display.cpp:318-325 | the red, green, blue and alpha channels, taken by shift and mask, repack to the colour word |
| OsdText.ChannelsOfPack | src/video_core/renderer_opengl/on_screen_display.cpp:318-325 | splitting a packed 0xAARRGGBB word gives its four channels back |
| OsdText.DrawText | src/video_core/renderer_opengl/on_screen_display.cpp:252-327 | six vertices (24 floats) per printable character, which fits the buffer of 24 floats per input character; no draw happens when no character is printable; otherwise there is a black shadow pass with the text's alpha, then the text pass in its colour, each over all vertices; the next text starts one line below the last newline; the vertex buffer drawn is the text's layout, so it decodes to exactly the printable characters in order and every vertex samples its glyph's column inside the atlas |
| OsdMessages.FindKind | src/video_core/renderer_opengl/on_screen_display.cpp:332-341 | returns the first entry of the kind, or nothing exactly when no entry has it |
| OsdMessages.Deadline | src/video_core/renderer_opengl/on_screen_display.cpp:336-343 | the deadline now + duration in unsigned 64-bit arithmetic: exact when it fits, and before now exactly when the sum wraps |
| OsdMessages.AddMessage | src/video_core/renderer_opengl/on_screen_display.cpp:329-344 | a `Typeless` or unlisted kind is appended with deadline now + duration (mod 2^64); otherwise only the first entry of that kind is overwritten in place |
| OsdMessages.AddMessageKeepsUniqueKinds | src/video_core/renderer_opengl/on_screen_display.cpp:329-344 | adding keeps at most one entry per kind other than `Typeless` |
| OsdMessages.ReAddDoesNotGrow | src/video_core/renderer_opengl/on_screen_display.cpp:331-341 | adding a kind other than `Typeless` a second time never lengthens the list |
| OsdMessages.Survivors | src/video_core/renderer_opengl/on_screen_display.cpp:390-398 | the sweep never lengthens the list, and keeps only messages whose deadline is not before now |
| OsdMessages.SurvivorsSpec | src/video_core/renderer_opengl/on_screen_display.cpp:390-398 | a message survives exactly when it was listed and is live; order is kept; the count is the number of live entries |
| OsdMessages.SurvivorsStep | src/video_core/renderer_opengl/on_screen_display.cpp:392-396 | one step of the sweep: drop the head if expired, keep it otherwise |
| OsdMessages.LiveSubsequenceBound | src/video_core/renderer_opengl/on_screen_display.cpp:390-398 | an order-keeping selection of live entries has at most as many entries as are live |
| OsdMessages.SurvivorsUnique | src/video_core/renderer_opengl/on_screen_display.cpp:390-398 | the sweep's result is the only order-keeping selection of live entries that keeps all of them |
| OsdMessages.SweepLater | src/video_core/renderer_opengl/on_screen_display.cpp:390-398 | sweeping at an earlier time and then a later one equals sweeping once at the later time; the sweep is idempotent |
| OsdMessages.SweepKeepsUniqueKinds | src/video_core/renderer_opengl/on_screen_display.cpp:390-398 | the sweep keeps at most one entry per kind other than `Typeless` |
| OsdMessages.ConsUniqueKinds | src/video_core/renderer_opengl/on_screen_display.cpp:331-343 | an entry put in front of a list with unique kinds keeps them unique when no listed entry shares its kind |
| OsdMessages.OnlyEntryOfKind | src/video_core/renderer_opengl/on_screen_display.cpp:331-343 | in a list with unique kinds, an entry of a kind other than `Typeless` is the only one of its kind |
| OsdFont.DebugDue | src/video_core/renderer_opengl/on_screen_display.cpp:385 | the refresh is due when the clock moved forward by more than 500 ms, or backward by less than 2^64 − 500 ms (the unsigned difference wraps) |
| OsdFont.NextLine | src/video_core/renderer_opengl/on_screen_display.cpp:390-398 | after drawing a list of texts the cursor is one line below per text plus one per newline |
| OsdFont.DrawAll | src/video_core/renderer_opengl/on_screen_display.cpp:390-398 | one text drawn per message, the last ending on the line `NextLine` gives; which text each is, and where it starts, is stated by `DrawAllAt` |
| OsdFont.DrawAllAt | src/video_core/renderer_opengl/on_screen_display.cpp:390-398 | message k is drawn in its own colour starting on the line below every text before it |
| OsdFont.DrawAllSnoc | src/video_core/renderer_opengl/on_screen_display.cpp:395 | drawing one more message appends its text drawn on the line below the previous ones |
| OsdFont.EraseStep | src/video_core/renderer_opengl/on_screen_display.cpp:392-393 | erasing an expired entry in place keeps the prefix and the eventual survivors |
| OsdFont.KeepStep | src/video_core/renderer_opengl/on_screen_display.cpp:394-396 | stepping over a live entry moves it into the kept prefix without changing the eventual survivors |
| OsdFont.ExpireAndDraw | src/video_core/renderer_opengl/on_screen_display.cpp:390-398 | the erase-while-iterating loop leaves exactly the survivors and draws each of them in order, each below the previous |
| OsdFont.Draw | src/video_core/renderer_opengl/on_screen_display.cpp:383-398 | when the refresh is due the debug timestamp becomes now and the messages are the survivors of the list with the new FPS line added at `refreshNow`; otherwise the timestamp is unchanged and the messages are the survivors of the old list; every remaining message is live and the frame draws exactly them, in order |
| OsdFont.DrawKeepsUniqueKinds | src/video_core/renderer_opengl/on_screen_display.cpp:383-398 | a frame keeps at most one message per kind other than `Typeless` |
| OsdFont.RefreshShowsFpsLine | src/video_core/renderer_opengl/on_screen_display.cpp:383-398 | after a due refresh whose deadline has not passed, the frame keeps exactly one FPS message, carrying the new text, deadline and colour |
| OsdFont.PostMessage | src/video_core/renderer_opengl/on_screen_display.cpp:410-414 | with `show_fps` off nothing changes; with it on the font's add runs and the debug timestamp is untouched |
| OsdFont.DrawMessage | src/video_core/renderer_opengl/on_screen_display.cpp:416-420 | with `show_fps` off nothing is drawn and nothing changes; with it on it is one frame |
| OsdFont.Initialize | src/video_core/renderer_opengl/on_screen_display.cpp:403-408 | the debug timestamp starts at 0; the atlas is the font table's; an empty FPS placeholder is listed exactly when `show_fps` is set |
| SettingsItems.SettingOfCode | src/android/app/src/main/java/org/citra/emu/ui/RunningSettingDialog.java:90-114 | a code names at most one setting, and names it by that setting's code |
| SettingsItems.SettingCodeRoundTrip | src/android/app/src/main/java/org/citra/emu/ui/RunningSettingDialog.java:90-114 | the 21 setting codes are distinct |
| SettingsItems.CheckboxShown | src/android/app/src/main/java/org/citra/emu/ui/RunningSettingDialog.java:256 | a checkbox is shown checked exactly when its value is positive, which for 0 and 1 means exactly when it is 1 |
| SettingsItems.CheckboxValue | src/android/app/src/main/java/org/citra/emu/ui/RunningSettingDialog.java:265-268 | a checkbox stores 1 or 0, and the stored value is shown checked exactly when the box was checked |
| SettingsItems.CheckboxNormalises | src/android/app/src/main/java/org/citra/emu/ui/RunningSettingDialog.java:253-268 | a value survives being shown and stored back exactly when it is 0 or 1 |
| SettingsItems.CheckboxClick | src/android/app/src/main/java/org/citra/emu/ui/RunningSettingDialog.java:259-263 | a click toggles the box and stores its new state as 1 or 0 |
| SettingsItems.RadioBindIndex | src/android/app/src/main/java/org/citra/emu/ui/RunningSettingDialog.java:290-299 | a radio row checks the button its value names; an out-of-range value checks the first |
| SettingsItems.RadioValue | src/android/app/src/main/java/org/citra/emu/ui/RunningSettingDialog.java:333-353 | checking button k stores k; any other view id stores 0 |
| SettingsItems.RadioBindRoundTrip | src/android/app/src/main/java/org/citra/emu/ui/RunningSettingDialog.java:290-353 | checking the bound button stores the value clamped to 0..3 |
| SettingsItems.SeekValue | src/android/app/src/main/java/org/citra/emu/ui/RunningSettingDialog.java:381-389 | with a maximum above 99, progress is truncated toward zero to a multiple of 5 within one step of it; otherwise it is stored as reported |
| SettingsItems.SeekValueIdempotent | src/android/app/src/main/java/org/citra/emu/ui/RunningSettingDialog.java:381-389 | snapping a snapped value changes nothing |
| SettingsItems.Interact | src/android/app/src/main/java/org/citra/emu/ui/RunningSettingDialog.java:259-389 | each view's listener changes only the row's value, to one that fits its kind |
| SettingsItems.ClampProgress | src/android/app/src/main/java/org/citra/emu/ui/RunningSettingDialog.java:375-397 | the progress a seek bar of maximum 100 takes is within 0..100 and equals the value when that is in range |
| SettingsItems.BindEvent | src/android/app/src/main/java/org/citra/emu/ui/RunningSettingDialog.java:253-397 | the listener call a bind triggers: the checkbox changes to checked exactly when the value is positive; the radio group checks button `value` when it is in 0..3 and the first button otherwise; the seek bar reports the value clamped to 0..100 |
| SettingsItems.BindKeepsValueIff | src/android/app/src/main/java/org/citra/emu/ui/RunningSettingDialog.java:253-397 | replaying a bind's listener call leaves the row unchanged exactly when the value is stable for its kind: 0 or 1, 0..3, or a multiple of 5 in 0..100 |
| SettingsItems.ButtonClick | src/android/app/src/main/java/org/citra/emu/ui/RunningSettingDialog.java:196-232 | only the submenu button opens a submenu, and it opens the menu its value names; only the eight button settings react, and the dialog dismisses exactly for the six action buttons other than the submenu and exit |
| SettingsAdapter.StoreField | src/android/app/src/main/java/org/citra/emu/ui/RunningSettingDialog.java:535-574 | setting one overlay static field leaves the others as they were |
| SettingsAdapter.LoadMainMenu | src/android/app/src/main/java/org/citra/emu/ui/RunningSettingDialog.java:414-425 | eight buttons, each with a different action, the first opening the settings submenu; the native array and snapshot are untouched |
| SettingsAdapter.SnapshotOf | src/android/app/src/main/java/org/citra/emu/ui/RunningSettingDialog.java:433-459 | the snapshot holds each overlay field as a row value, with flags as 1 or 0 |
| SettingsAdapter.LoadSettingsMenu | src/android/app/src/main/java/org/citra/emu/ui/RunningSettingDialog.java:427-486 | fails exactly when the native array has fewer than seven entries; otherwise six preference rows showing the snapshot, then seven native rows showing the array's first seven entries, in the fixed order |
| SettingsAdapter.LoadedLayoutMatchesSave | src/android/app/src/main/java/org/citra/emu/ui/RunningSettingDialog.java:433-574 | the row the save reads at position k is the setting whose overlay field and preference it writes there |
| SettingsAdapter.LoadSubMenu | src/android/app/src/main/java/org/citra/emu/ui/RunningSettingDialog.java:77-86 | menu 0 loads the main menu, menu 1 the settings submenu, any other value nothing |
| SettingsAdapter.Edit | src/android/app/src/main/java/org/citra/emu/ui/RunningSettingDialog.java:259-389 | an interaction changes only the value of the row it happens on, and stores there the value that row's listener computes; every other row, the native array and the snapshot are unchanged |
| SettingsAdapter.SaveRow | src/android/app/src/main/java/org/citra/emu/ui/RunningSettingDialog.java:535-574 | an unchanged row does nothing; a changed row sets its overlay field to the row value and writes its preference key with it, touching no other field or key |
| SettingsAdapter.SaveRowStep | src/android/app/src/main/java/org/citra/emu/ui/RunningSettingDialog.java:535-574 | saving one preference row touches only that row's preference and overlay field |
| SettingsAdapter.SavePrefs | src/android/app/src/main/java/org/citra/emu/ui/RunningSettingDialog.java:535-574 | a preference is written exactly when its row differs from the snapshot, with the row's value; each overlay field takes its row's value when changed and keeps its own otherwise; motion by touch is never persisted |
| SettingsAdapter.SavedAll | src/android/app/src/main/java/org/citra/emu/ui/RunningSettingDialog.java:535-574 | after all six rows, every row's write and field are as its own change says |
| SettingsAdapter.NativePush | src/android/app/src/main/java/org/citra/emu/ui/RunningSettingDialog.java:581-591 | the native array is sent exactly when some row differs from the loaded entry, holding the rows' values |
| SettingsAdapter.SaveSettings | src/android/app/src/main/java/org/citra/emu/ui/RunningSettingDialog.java:525-593 | without a loaded native array it does nothing; otherwise it fails exactly when rows are missing; on success the preference rows are dropped, the controls refreshed, only changed preferences written, the native array sent only if changed, and the loaded array forgotten |
| SettingsAdapter.SaveTwiceIsNoop | src/android/app/src/main/java/org/citra/emu/ui/RunningSettingDialog.java:526-528 | a second save after a successful one does nothing |
| SettingsAdapter.LoadThenSaveChangesNothing | src/android/app/src/main/java/org/citra/emu/ui/RunningSettingDialog.java:427-593 | loading the submenu and saving it unedited writes no preference, sends no array and leaves the overlay as it was |
| SettingsAdapter.SaveUntouched | src/android/app/src/main/java/org/citra/emu/ui/RunningSettingDialog.java:535-591 | a save with no changed row writes no preference, sends no array and leaves the overlay fields as they were |
| SettingsAdapter.OverlayByFields | src/android/app/src/main/java/org/citra/emu/ui/RunningSettingDialog.java:535-574 | the six row fields determine the overlay |
| SettingsAdapter.LongNativeArrayFailsOnSave | src/android/app/src/main/java/org/citra/emu/ui/RunningSettingDialog.java:463-484 | a native array longer than seven loads, but the save then runs out of rows |
| SettingsAdapter.EditKeepsLayout | src/android/app/src/main/java/org/citra/emu/ui/RunningSettingDialog.java:259-389 | edits never move or replace a row |
| SettingsAdapter.SessionSave | src/android/app/src/main/java/org/citra/emu/ui/RunningSettingDialog.java:427-593 | after load and any layout-keeping edits, each setting's preference is written and its field set exactly when its row ends different from the overlay's load-time value; native entry i is sent with the final value of the row showing that setting, and only if some native row changed |
| SettingsAdapter.SessionSavePrefs | src/android/app/src/main/java/org/citra/emu/ui/RunningSettingDialog.java:535-574 | after load and layout-keeping edits, each preference row's key is written and its field set exactly when the row ends different from the overlay's load-time value |
| SettingsAdapter.SessionSaveNative | src/android/app/src/main/java/org/citra/emu/ui/RunningSettingDialog.java:581-591 | after load and layout-keeping edits, the native array is sent exactly when some native row differs from the loaded entry, holding the rows' final values |
| SettingsAdapter.BindMovesFrameLimit | src/android/app/src/main/java/org/citra/emu/ui/RunningSettingDialog.java:375-397 | when the bind's listener fires, a frame limit of 37 is snapped to 35 and an otherwise unedited save sends the array with 35 |
| SettingsAdapter.BindSnapsFrameLimit | src/android/app/src/main/java/org/citra/emu/ui/RunningSettingDialog.java:381-397 | loading an array with frame limit 37 shows it on a seek bar, and replaying its bind stores 35 |
| SettingsAdapter.PushAfterSnap | src/android/app/src/main/java/org/citra/emu/ui/RunningSettingDialog.java:581-591 | with the frame limit row at 35 against a loaded 37, the save sends the array with 35 |

## Left out

- OpenGL calls: texture upload, buffer upload, shader and state setup. Only the data passed to them is modelled (the atlas words, the vertex buffer, the two draw calls and their colours).
- Floating-point geometry: the font size, borders, shadow offset and start position. Vertices are modelled by their character cell and corner, because the floats are a fixed affine function of those.
- The clock (`Common::Timer::GetTimeMs`): each reading is a parameter. The second reading taken inside the debug refresh is the separate parameter `refreshNow`.
- The text of the debug line: `fmt::format` of the performance statistics is not part of this model, so the text is a parameter.
- The `s_raster_font` singleton's lifetime: a font is passed in and returned. Calling an entry point before `Initialize` is not modelled.
- `Duration::FOREVER`, `Color::BLUE` and the `MessageType` enumerators other than `Typeless` and `FPS`: the display header is not part of this model. The constants are parameters; the other kinds are `Other(id)`.
- Android framework behaviour: layout inflation, recycling of view holders, dialog creation, dismissal plumbing and title text. Whether `setChecked`, `check` and `setProgress` fire the listener during a bind depends on the view's previous state, which is framework state. The listener call a bind would fire is `BindEvent`; a session applies it, like any other interaction, through `Edit`.
- SettingsAdapter.LoadThenSaveChangesNothing: holds for a load followed by a save with no listener call in between. When the binds fire their listeners (RunningSettingDialog.java:256, 299 and 397, reaching the listeners at 266, 333 and 381), each is an `Edit` with `BindEvent`, and `SessionSave` covers the result. A value that is not `BindStable` then gets written or sent: `BindMovesFrameLimit` shows a frame limit of 37 sent back as 35.
- The seek bar's value label (`"%"` or the plain number) and the radio buttons' captions: display text only.
- The actions behind the buttons (configuring controls, camera reset, rotation, cheats, memory viewer, layout, stopping emulation): only the dispatch to the action, and whether the dialog dismisses, are modelled.
- `SharedPreferences`: modelled as the map of keys written by one save. `apply` and persistence are not modelled.
- The native library: `getRunningSettings` is an input array and `setRunningSettings` is the `pushed` output. A `null` array from the core is not modelled.
- SettingsAdapter.SaveSettings: when rows run out, the model returns an error and drops the effects of the steps that ran before the exception. The source has by then already applied the preference writes and refreshed the controls.
- SettingsAdapter.LoadSettingsMenu: when the native array has fewer than seven entries, the model returns an error and drops the partial state. The source has by then already stored the array (RunningSettingDialog.java:429) and added the six preference rows and some native rows before the out-of-bounds read.
- Row labels: `name` is kept as the string-resource key. The lookup of the localised text is not modelled.

## Notes

- The loading code reads exactly seven entries of the core's settings array. The save walks the whole array against the rows that are left. So an array shorter than seven fails at load, and an array longer than seven loads but fails at save (`LongNativeArrayFailsOnSave`). The model follows the code in both cases.
- The motion-by-touch row updates the overlay field but is never written to the preference store. The model keeps that asymmetry (`RowKey(5)` is `None`).

=== FILE: machine.dfy ===
/** Fixed-width integers of the two source languages, their wrap-around and
    division rules, and the optional/failure wrappers used across the model. */
module Machine {

  /** C++ `u8`, `u32`, `u64` and Java `int`. */
  type u8 = x: int | 0 <= x < 0x100
  type u32 = x: int | 0 <= x < 0x1_0000_0000
  type u64 = x: int | 0 <= x < 0x1_0000_0000_0000_0000
  type i32 = x: int | -0x8000_0000 <= x < 0x8000_0000

  const U64_MODULUS: int := 0x1_0000_0000_0000_0000

  /** Unsigned 64-bit arithmetic keeps the residue modulo 2^64. */
  function WrapU64(x: int): (r: u64)
    ensures 0 <= x < U64_MODULUS ==> r == x
    ensures U64_MODULUS <= x < 2 * U64_MODULUS ==> r == x - U64_MODULUS
    ensures -U64_MODULUS <= x < 0 ==> r == x + U64_MODULUS
  {
    x % U64_MODULUS
  }

  /** Java's `/` on `int`: the quotient is truncated toward zero. */
  function JavaDiv(a: int, b: int): (q: int)
    requires b > 0
    ensures a >= 0 ==> 0 <= q * b <= a < q * b + b
    ensures a < 0 ==> q * b - b < a <= q * b <= 0
  {
    if a >= 0 then
      DivBounds(a, b);
      a / b
    else
      DivBounds(-a, b);
      -((-a) / b)
  }

  /** Euclidean division of a natural number rounds down. */
  lemma DivBounds(n: nat, b: int)
    requires b > 0
    ensures 0 <= (n / b) * b <= n < (n / b) * b + b
  {
    var q, m := n / b, n % b;
    assert n == q * b + m && 0 <= m < b;
    assert q >= 0;
  }

  datatype Option<+T> = None | Some(value: T)

  datatype Result<+T, +E> = Ok(value: T) | Err(error: E)
}

=== FILE: osd_atlas.dfy ===
/** The glyph atlas of the on-screen display: a 95 x 13 table of 8-pixel
    bitmap rows is expanded into one texture row of 8 * 95 pixels per
    scanline, every pixel a 32-bit RGBA word that is either all ones or 0. */
module OsdAtlas {
  import opened Machine

  const CHARACTER_WIDTH := 8
  const CHARACTER_HEIGHT := 13
  const CHARACTER_OFFSET := 32
  const CHARACTER_COUNT := 95

  /** Pixels in one scanline of the atlas, and pixels in the whole atlas. */
  const ATLAS_WIDTH := CHARACTER_WIDTH * CHARACTER_COUNT
  const ATLAS_SIZE := ATLAS_WIDTH * CHARACTER_HEIGHT

  /** `-1` stored into a `u32`. */
  const ALL_ONES: u32 := 0xFFFF_FFFF

  /** The 13 scanlines of one glyph. */
  type Glyph = rows: seq<bv8> | |rows| == CHARACTER_HEIGHT
    witness [0, 0, 0, 0, 0, 0, 0, 0, 0, 0, 0, 0, 0]

  /** One row of the font table: the 13 scanlines of a glyph, top first. */
  function Scanlines(r0: bv8, r1: bv8, r2: bv8, r3: bv8, r4: bv8, r5: bv8, r6: bv8,
                     r7: bv8, r8: bv8, r9: bv8, r10: bv8, r11: bv8, r12: bv8): Glyph
  {
    [r0, r1, r2, r3, r4, r5, r6, r7, r8, r9, r10, r11, r12]
  }

  /** The font: entry `c` holds the 13 scanlines of the glyph for byte
      `c + CHARACTER_OFFSET`, most significant bit leftmost. */
  const RASTERS: seq<Glyph> := [
    Scanlines(0x00, 0x00, 0x00, 0x00, 0x00, 0x00, 0x00, 0x00, 0x00, 0x00, 0x00, 0x00, 0x00),
    Scanlines(0x00, 0x00, 0x18, 0x18, 0x00, 0x00, 0x18, 0x18, 0x18, 0x18, 0x18, 0x18, 0x18),
    Scanlines(0x00, 0x00, 0x00, 0x00, 0x00, 0x00, 0x00, 0x00, 0x00, 0x36, 0x36, 0x36, 0x36),
    Scanlines(0x00, 0x00, 0x00, 0x66, 0x66, 0xff, 0x66, 0x66, 0xff, 0x66, 0x66, 0x00, 0x00),
    Scanlines(0x00, 0x00, 0x18, 0x7e, 0xff, 0x1b, 0x1f, 0x7e, 0xf8, 0xd8, 0xff, 0x7e, 0x18),
    Scanlines(0x00, 0x00, 0x0e, 0x1b, 0xdb, 0x6e, 0x30, 0x18, 0x0c, 0x76, 0xdb, 0xd8, 0x70),
    Scanlines(0x00, 0x00, 0x7f, 0xc6, 0xcf, 0xd8, 0x70, 0x70, 0xd8, 0xcc, 0xcc, 0x6c, 0x38),
    Scanlines(0x00, 0x00, 0x00, 0x00, 0x00, 0x00, 0x00, 0x00, 0x00, 0x18, 0x1c, 0x0c, 0x0e),
    Scanlines(0x00, 0x00, 0x0c, 0x18, 0x30, 0x30, 0x30, 0x30, 0x30, 0x30, 0x30, 0x18, 0x0c),
    Scanlines(0x00, 0x00, 0x30, 0x18, 0x0c, 0x0c, 0x0c, 0x0c, 0x0c, 0x0c, 0x0c, 0x18, 0x30),
    Scanlines(0x00, 0x00, 0x00, 0x00, 0x99, 0x5a, 0x3c, 0xff, 0x3c, 0x5a, 0x99, 0x00, 0x00),
    Scanlines(0x00, 0x00, 0x00, 0x18, 0x18, 0x18, 0xff, 0xff, 0x18, 0x18, 0x18, 0x00, 0x00),
    Scanlines(0x00, 0x00, 0x30, 0x18, 0x1c, 0x1c, 0x00, 0x00, 0x00, 0x00, 0x00, 0x00, 0x00),
    Scanlines(0x00, 0x00, 0x00, 0x00, 0x00, 0x00, 0xff, 0xff, 0x00, 0x00, 0x00, 0x00, 0x00),
    Scanlines(0x00, 0x00, 0x00, 0x38, 0x38, 0x00, 0x00, 0x00, 0x00, 0x00, 0x00, 0x00, 0x00),
    Scanlines(0x00, 0x60, 0x60, 0x30, 0x30, 0x18, 0x18, 0x0c, 0x0c, 0x06, 0x06, 0x03, 0x03),
    Scanlines(0x00, 0x00, 0x3c, 0x66, 0xc3, 0xe3, 0xf3, 0xdb, 0xcf, 0xc7, 0xc3, 0x66, 0x3c),
    Scanlines(0x00, 0x00, 0x7e, 0x18, 0x18, 0x18, 0x18, 0x18, 0x18, 0x18, 0x78, 0x38, 0x18),
    Scanlines(0x00, 0x00, 0xff, 0xc0, 0xc0, 0x60, 0x30, 0x18, 0x0c, 0x06, 0x03, 0xe7, 0x7e),
    Scanlines(0x00, 0x00, 0x7e, 0xe7, 0x03, 0x03, 0x07, 0x7e, 0x07, 0x03, 0x03, 0xe7, 0x7e),
    Scanlines(0x00, 0x00, 0x0c, 0x0c, 0x0c, 0x0c, 0x0c, 0xff, 0xcc, 0x6c, 0x3c, 0x1c, 0x0c),
    Scanlines(0x00, 0x00, 0x7e, 0xe7, 0x03, 0x03, 0x07, 0xfe, 0xc0, 0xc0, 0xc0, 0xc0, 0xff),
    Scanlines(0x00, 0x00, 0x7e, 0xe7, 0xc3, 0xc3, 0xc7, 0xfe, 0xc0, 0xc0, 0xc0, 0xe7, 0x7e),
    Scanlines(0x00, 0x00, 0x30, 0x30, 0x30, 0x30, 0x18, 0x0c, 0x06, 0x03, 0x03, 0x03, 0xff),
    Scanlines(0x00, 0x00, 0x7e, 0xe7, 0xc3, 0xc3, 0xe7, 0x7e, 0xe7, 0xc3, 0xc3, 0xe7, 0x7e),
    Scanlines(0x00, 0x00, 0x7e, 0xe7, 0x03, 0x03, 0x03, 0x7f, 0xe7, 0xc3, 0xc3, 0xe7, 0x7e),
    Scanlines(0x00, 0x00, 0x00, 0x38, 0x38, 0x00, 0x00, 0x38, 0x38, 0x00, 0x00, 0x00, 0x00),
    Scanlines(0x00, 0x00, 0x30, 0x18, 0x1c, 0x1c, 0x00, 0x00, 0x1c, 0x1c, 0x00, 0x00, 0x00),
    Scanlines(0x00, 0x00, 0x06, 0x0c, 0x18, 0x30, 0x60, 0xc0, 0x60, 0x30, 0x18, 0x0c, 0x06),
    Scanlines(0x00, 0x00, 0x00, 0x00, 0xff, 0xff, 0x00, 0xff, 0xff, 0x00, 0x00, 0x00, 0x00),
    Scanlines(0x00, 0x00, 0x60, 0x30, 0x18, 0x0c, 0x06, 0x03, 0x06, 0x0c, 0x18, 0x30, 0x60),
    Scanlines(0x00, 0x00, 0x18, 0x00, 0x00, 0x18, 0x18, 0x0c, 0x06, 0x03, 0xc3, 0xc3, 0x7e),
    Scanlines(0x00, 0x00, 0x3f, 0x60, 0xcf, 0xdb, 0xd3, 0xdd, 0xc3, 0x7e, 0x00, 0x00, 0x00),
    Scanlines(0x00, 0x00, 0xc3, 0xc3, 0xc3, 0xc3, 0xff, 0xc3, 0xc3, 0xc3, 0x66, 0x3c, 0x18),
    Scanlines(0x00, 0x00, 0xfe, 0xc7, 0xc3, 0xc3, 0xc7, 0xfe, 0xc7, 0xc3, 0xc3, 0xc7, 0xfe),
    Scanlines(0x00, 0x00, 0x7e, 0xe7, 0xc0, 0xc0, 0xc0, 0xc0, 0xc0, 0xc0, 0xc0, 0xe7, 0x7e),
    Scanlines(0x00, 0x00, 0xfc, 0xce, 0xc7, 0xc3, 0xc3, 0xc3, 0xc3, 0xc3, 0xc7, 0xce, 0xfc),
    Scanlines(0x00, 0x00, 0xff, 0xc0, 0xc0, 0xc0, 0xc0, 0xfc, 0xc0, 0xc0, 0xc0, 0xc0, 0xff),
    Scanlines(0x00, 0x00, 0xc0, 0xc0, 0xc0, 0xc0, 0xc0, 0xc0, 0xfc, 0xc0, 0xc0, 0xc0, 0xff),
    Scanlines(0x00, 0x00, 0x7e, 0xe7, 0xc3, 0xc3, 0xcf, 0xc0, 0xc0, 0xc0, 0xc0, 0xe7, 0x7e),
    Scanlines(0x00, 0x00, 0xc3, 0xc3, 0xc3, 0xc3, 0xc3, 0xff, 0xc3, 0xc3, 0xc3, 0xc3, 0xc3),
    Scanlines(0x00, 0x00, 0x7e, 0x18, 0x18, 0x18, 0x18, 0x18, 0x18, 0x18, 0x18, 0x18, 0x7e),
    Scanlines(0x00, 0x00, 0x7c, 0xee, 0xc6, 0x06, 0x06, 0x06, 0x06, 0x06, 0x06, 0x06, 0x06),
    Scanlines(0x00, 0x00, 0xc3, 0xc6, 0xcc, 0xd8, 0xf0, 0xe0, 0xf0, 0xd8, 0xcc, 0xc6, 0xc3),
    Scanlines(0x00, 0x00, 0xff, 0xc0, 0xc0, 0xc0, 0xc0, 0xc0, 0xc0, 0xc0, 0xc0, 0xc0, 0xc0),
    Scanlines(0x00, 0x00, 0xc3, 0xc3, 0xc3, 0xc3, 0xc3, 0xc3, 0xdb, 0xff, 0xff, 0xe7, 0xc3),
    Scanlines(0x00, 0x00, 0xc7, 0xc7, 0xcf, 0xcf, 0xdf, 0xdb, 0xfb, 0xf3, 0xf3, 0xe3, 0xe3),
    Scanlines(0x00, 0x00, 0x7e, 0xe7, 0xc3, 0xc3, 0xc3, 0xc3, 0xc3, 0xc3, 0xc3, 0xe7, 0x7e),
    Scanlines(0x00, 0x00, 0xc0, 0xc0, 0xc0, 0xc0, 0xc0, 0xfe, 0xc7, 0xc3, 0xc3, 0xc7, 0xfe),
    Scanlines(0x00, 0x00, 0x3f, 0x6e, 0xdf, 0xdb, 0xc3, 0xc3, 0xc3, 0xc3, 0xc3, 0x66, 0x3c),
    Scanlines(0x00, 0x00, 0xc3, 0xc6, 0xcc, 0xd8, 0xf0, 0xfe, 0xc7, 0xc3, 0xc3, 0xc7, 0xfe),
    Scanlines(0x00, 0x00, 0x7e, 0xe7, 0x03, 0x03, 0x07, 0x7e, 0xe0, 0xc0, 0xc0, 0xe7, 0x7e),
    Scanlines(0x00, 0x00, 0x18, 0x18, 0x18, 0x18, 0x18, 0x18, 0x18, 0x18, 0x18, 0x18, 0xff),
    Scanlines(0x00, 0x00, 0x7e, 0xe7, 0xc3, 0xc3, 0xc3, 0xc3, 0xc3, 0xc3, 0xc3, 0xc3, 0xc3),
    Scanlines(0x00, 0x00, 0x18, 0x3c, 0x3c, 0x66, 0x66, 0xc3, 0xc3, 0xc3, 0xc3, 0xc3, 0xc3),
    Scanlines(0x00, 0x00, 0xc3, 0xe7, 0xff, 0xff, 0xdb, 0xdb, 0xc3, 0xc3, 0xc3, 0xc3, 0xc3),
    Scanlines(0x00, 0x00, 0xc3, 0x66, 0x66, 0x3c, 0x3c, 0x18, 0x3c, 0x3c, 0x66, 0x66, 0xc3),
    Scanlines(0x00, 0x00, 0x18, 0x18, 0x18, 0x18, 0x18, 0x18, 0x3c, 0x3c, 0x66, 0x66, 0xc3),
    Scanlines(0x00, 0x00, 0xff, 0xc0, 0xc0, 0x60, 0x30, 0x7e, 0x0c, 0x06, 0x03, 0x03, 0xff),
    Scanlines(0x00, 0x00, 0x3c, 0x30, 0x30, 0x30, 0x30, 0x30, 0x30, 0x30, 0x30, 0x30, 0x3c),
    Scanlines(0x00, 0x03, 0x03, 0x06, 0x06, 0x0c, 0x0c, 0x18, 0x18, 0x30, 0x30, 0x60, 0x60),
    Scanlines(0x00, 0x00, 0x3c, 0x0c, 0x0c, 0x0c, 0x0c, 0x0c, 0x0c, 0x0c, 0x0c, 0x0c, 0x3c),
    Scanlines(0x00, 0x00, 0x00, 0x00, 0x00, 0x00, 0x00, 0x00, 0x00, 0xc3, 0x66, 0x3c, 0x18),
    Scanlines(0xff, 0xff, 0x00, 0x00, 0x00, 0x00, 0x00, 0x00, 0x00, 0x00, 0x00, 0x00, 0x00),
    Scanlines(0x00, 0x00, 0x00, 0x00, 0x00, 0x00, 0x00, 0x00, 0x00, 0x18, 0x38, 0x30, 0x70),
    Scanlines(0x00, 0x00, 0x7f, 0xc3, 0xc3, 0x7f, 0x03, 0xc3, 0x7e, 0x00, 0x00, 0x00, 0x00),
    Scanlines(0x00, 0x00, 0xfe, 0xc3, 0xc3, 0xc3, 0xc3, 0xfe, 0xc0, 0xc0, 0xc0, 0xc0, 0xc0),
    Scanlines(0x00, 0x00, 0x7e, 0xc3, 0xc0, 0xc0, 0xc0, 0xc3, 0x7e, 0x00, 0x00, 0x00, 0x00),
    Scanlines(0x00, 0x00, 0x7f, 0xc3, 0xc3, 0xc3, 0xc3, 0x7f, 0x03, 0x03, 0x03, 0x03, 0x03),
    Scanlines(0x00, 0x00, 0x7f, 0xc0, 0xc0, 0xfe, 0xc3, 0xc3, 0x7e, 0x00, 0x00, 0x00, 0x00),
    Scanlines(0x00, 0x00, 0x30, 0x30, 0x30, 0x30, 0x30, 0xfc, 0x30, 0x30, 0x30, 0x33, 0x1e),
    Scanlines(0x7e, 0xc3, 0x03, 0x03, 0x7f, 0xc3, 0xc3, 0xc3, 0x7e, 0x00, 0x00, 0x00, 0x00),
    Scanlines(0x00, 0x00, 0xc3, 0xc3, 0xc3, 0xc3, 0xc3, 0xc3, 0xfe, 0xc0, 0xc0, 0xc0, 0xc0),
    Scanlines(0x00, 0x00, 0x18, 0x18, 0x18, 0x18, 0x18, 0x18, 0x18, 0x00, 0x00, 0x18, 0x00),
    Scanlines(0x38, 0x6c, 0x0c, 0x0c, 0x0c, 0x0c, 0x0c, 0x0c, 0x0c, 0x00, 0x00, 0x0c, 0x00),
    Scanlines(0x00, 0x00, 0xc6, 0xcc, 0xf8, 0xf0, 0xd8, 0xcc, 0xc6, 0xc0, 0xc0, 0xc0, 0xc0),
    Scanlines(0x00, 0x00, 0x7e, 0x18, 0x18, 0x18, 0x18, 0x18, 0x18, 0x18, 0x18, 0x18, 0x78),
    Scanlines(0x00, 0x00, 0xdb, 0xdb, 0xdb, 0xdb, 0xdb, 0xdb, 0xfe, 0x00, 0x00, 0x00, 0x00),
    Scanlines(0x00, 0x00, 0xc6, 0xc6, 0xc6, 0xc6, 0xc6, 0xc6, 0xfc, 0x00, 0x00, 0x00, 0x00),
    Scanlines(0x00, 0x00, 0x7c, 0xc6, 0xc6, 0xc6, 0xc6, 0xc6, 0x7c, 0x00, 0x00, 0x00, 0x00),
    Scanlines(0xc0, 0xc0, 0xc0, 0xfe, 0xc3, 0xc3, 0xc3, 0xc3, 0xfe, 0x00, 0x00, 0x00, 0x00),
    Scanlines(0x03, 0x03, 0x03, 0x7f, 0xc3, 0xc3, 0xc3, 0xc3, 0x7f, 0x00, 0x00, 0x00, 0x00),
    Scanlines(0x00, 0x00, 0xc0, 0xc0, 0xc0, 0xc0, 0xc0, 0xe0, 0xfe, 0x00, 0x00, 0x00, 0x00),
    Scanlines(0x00, 0x00, 0xfe, 0x03, 0x03, 0x7e, 0xc0, 0xc0, 0x7f, 0x00, 0x00, 0x00, 0x00),
    Scanlines(0x00, 0x00, 0x1c, 0x36, 0x30, 0x30, 0x30, 0x30, 0xfc, 0x30, 0x30, 0x30, 0x00),
    Scanlines(0x00, 0x00, 0x7e, 0xc6, 0xc6, 0xc6, 0xc6, 0xc6, 0xc6, 0x00, 0x00, 0x00, 0x00),
    Scanlines(0x00, 0x00, 0x18, 0x3c, 0x3c, 0x66, 0x66, 0xc3, 0xc3, 0x00, 0x00, 0x00, 0x00),
    Scanlines(0x00, 0x00, 0xc3, 0xe7, 0xff, 0xdb, 0xc3, 0xc3, 0xc3, 0x00, 0x00, 0x00, 0x00),
    Scanlines(0x00, 0x00, 0xc3, 0x66, 0x3c, 0x18, 0x3c, 0x66, 0xc3, 0x00, 0x00, 0x00, 0x00),
    Scanlines(0xc0, 0x60, 0x60, 0x30, 0x18, 0x3c, 0x66, 0x66, 0xc3, 0x00, 0x00, 0x00, 0x00),
    Scanlines(0x00, 0x00, 0xff, 0x60, 0x30, 0x18, 0x0c, 0x06, 0xff, 0x00, 0x00, 0x00, 0x00),
    Scanlines(0x00, 0x00, 0x0f, 0x18, 0x18, 0x18, 0x38, 0xf0, 0x38, 0x18, 0x18, 0x18, 0x0f),
    Scanlines(0x18, 0x18, 0x18, 0x18, 0x18, 0x18, 0x18, 0x18, 0x18, 0x18, 0x18, 0x18, 0x18),
    Scanlines(0x00, 0x00, 0xf0, 0x18, 0x18, 0x18, 0x1c, 0x0f, 0x1c, 0x18, 0x18, 0x18, 0xf0),
    Scanlines(0x00, 0x00, 0x00, 0x00, 0x00, 0x00, 0x06, 0x8f, 0xf1, 0x60, 0x00, 0x00, 0x00)
  ]

  /** A table shaped like the font: 95 glyphs. */
  predicate WellFormedTable(table: seq<Glyph>) {
    |table| == CHARACTER_COUNT
  }

  predicate InGlyphRange(y: int, c: int, x: int) {
    0 <= y < CHARACTER_HEIGHT && 0 <= c < CHARACTER_COUNT && 0 <= x < CHARACTER_WIDTH
  }

  /** Where pixel `x` of scanline `y` of glyph `c` lives in the atlas. */
  function AtlasIndex(y: int, c: int, x: int): int {
    CHARACTER_WIDTH * CHARACTER_COUNT * y + CHARACTER_WIDTH * c + x
  }

  /** Whether pixel `x` (0 is leftmost) of a bitmap row is lit. */
  function Pixel(row: bv8, x: int): bool
    requires 0 <= x < CHARACTER_WIDTH
  {
    (row & ((1 as bv8) << (CHARACTER_WIDTH - x - 1))) != 0
  }

  function PixelWord(row: bv8, x: int): u32
    requires 0 <= x < CHARACTER_WIDTH
  {
    if Pixel(row, x) then ALL_ONES else 0
  }

  /** The masks of the eight pixels of a row: the leftmost pixel is the top bit. */
  lemma PixelMasks(row: bv8)
    ensures Pixel(row, 0) == (row & 0x80 != 0) && Pixel(row, 1) == (row & 0x40 != 0)
    ensures Pixel(row, 2) == (row & 0x20 != 0) && Pixel(row, 3) == (row & 0x10 != 0)
    ensures Pixel(row, 4) == (row & 0x08 != 0) && Pixel(row, 5) == (row & 0x04 != 0)
    ensures Pixel(row, 6) == (row & 0x02 != 0) && Pixel(row, 7) == (row & 0x01 != 0)
  {
    PixelBit(row, 0, 0x80); PixelBit(row, 1, 0x40); PixelBit(row, 2, 0x20); PixelBit(row, 3, 0x10);
    PixelBit(row, 4, 0x08); PixelBit(row, 5, 0x04); PixelBit(row, 6, 0x02); PixelBit(row, 7, 0x01);
  }

  /** Pixel `x` is read with the single-bit mask shifted `7 - x` places. */
  lemma PixelBit(row: bv8, x: int, mask: bv8)
    requires 0 <= x < CHARACTER_WIDTH && mask == (1 as bv8) << (CHARACTER_WIDTH - x - 1)
    ensures Pixel(row, x) == (row & mask != 0)
  {
  }

  /** The eight pixels of a bitmap row, left to right, each read with its
      own fixed mask; they agree with the shifted-mask test of the atlas fill. */
  function PixelRow(row: bv8): (bits: seq<bool>)
    ensures |bits| == CHARACTER_WIDTH
    ensures bits[0] == Pixel(row, 0) && bits[1] == Pixel(row, 1) && bits[2] == Pixel(row, 2) && bits[3] == Pixel(row, 3)
    ensures bits[4] == Pixel(row, 4) && bits[5] == Pixel(row, 5) && bits[6] == Pixel(row, 6) && bits[7] == Pixel(row, 7)
  {
    PixelMasks(row);
    [row & 0x80 != 0, row & 0x40 != 0, row & 0x20 != 0, row & 0x10 != 0,
     row & 0x08 != 0, row & 0x04 != 0, row & 0x02 != 0, row & 0x01 != 0]
  }

  /** Each pixel of the row is the shifted-mask test of its column. */
  lemma PixelRowAt(row: bv8, x: int)
    requires 0 <= x < CHARACTER_WIDTH
    ensures PixelRow(row)[x] == Pixel(row, x)
  {
    var bits := PixelRow(row);
    if x == 0 { assert bits[x] == bits[0]; }
    else if x == 1 { assert bits[x] == bits[1]; }
    else if x == 2 { assert bits[x] == bits[2]; }
    else if x == 3 { assert bits[x] == bits[3]; }
    else if x == 4 { assert bits[x] == bits[4]; }
    else if x == 5 { assert bits[x] == bits[5]; }
    else if x == 6 { assert bits[x] == bits[6]; }
    else { assert x == 7; }
  }

  /** Packs eight pixels, leftmost first, back into a bitmap row. */
  function Pack(bits: seq<bool>): bv8
    requires |bits| == CHARACTER_WIDTH
  {
    (if bits[0] then 0x80 else 0) | (if bits[1] then 0x40 else 0) |
    (if bits[2] then 0x20 else 0) | (if bits[3] then 0x10 else 0) |
    (if bits[4] then 0x08 else 0) | (if bits[5] then 0x04 else 0) |
    (if bits[6] then 0x02 else 0) | (if bits[7] then 0x01 else 0)
  }

  /** Reading the pixels of a row loses nothing: packing them gives the row back. */
  lemma PackPixelRow(row: bv8)
    ensures Pack(PixelRow(row)) == row
  {
    var bits := PixelRow(row);
    assert bits[0] == (row & 0x80 != 0) && bits[1] == (row & 0x40 != 0) && bits[2] == (row & 0x20 != 0) && bits[3] == (row & 0x10 != 0);
    assert bits[4] == (row & 0x08 != 0) && bits[5] == (row & 0x04 != 0) && bits[6] == (row & 0x02 != 0) && bits[7] == (row & 0x01 != 0);
  }

  /** ... and every eight-pixel row is the pixel reading of exactly one byte. */
  lemma PixelRowOfPack(bits: seq<bool>)
    requires |bits| == CHARACTER_WIDTH
    ensures PixelRow(Pack(bits)) == bits
  {
  }

  /** The atlas index of each in-range pixel is distinct ... */
  lemma AtlasIndexInjective(y1: int, c1: int, x1: int, y2: int, c2: int, x2: int)
    requires InGlyphRange(y1, c1, x1) && InGlyphRange(y2, c2, x2)
    requires AtlasIndex(y1, c1, x1) == AtlasIndex(y2, c2, x2)
    ensures y1 == y2 && c1 == c2 && x1 == x2
  {
  }

  /** ... and every atlas index is the index of some pixel. */
  function AtlasCoordinates(i: int): (r: (int, int, int))
    requires 0 <= i < ATLAS_SIZE
    ensures InGlyphRange(r.0, r.1, r.2)
    ensures AtlasIndex(r.0, r.1, r.2) == i
  {
    (i / ATLAS_WIDTH, (i % ATLAS_WIDTH) / CHARACTER_WIDTH, i % CHARACTER_WIDTH)
  }

  /** Decomposing the index of a pixel gives that pixel back. */
  lemma CoordinatesOfIndex(y: int, c: int, x: int)
    requires InGlyphRange(y, c, x)
    ensures 0 <= AtlasIndex(y, c, x) < ATLAS_SIZE
    ensures AtlasCoordinates(AtlasIndex(y, c, x)) == (y, c, x)
  {
    var r := AtlasCoordinates(AtlasIndex(y, c, x));
    AtlasIndexInjective(r.0, r.1, r.2, y, c, x);
  }

  /** The word the atlas holds at index `i`. */
  function ExpectedWord(table: seq<Glyph>, i: int): u32
    requires WellFormedTable(table) && 0 <= i < ATLAS_SIZE
  {
    var (y, c, x) := AtlasCoordinates(i);
    PixelWord(table[c][y], x)
  }

  /** `tex` is the atlas expanded from `table`. */
  ghost predicate IsAtlasOf(tex: seq<u32>, table: seq<Glyph>)
    requires WellFormedTable(table)
  {
    |tex| == ATLAS_SIZE &&
    forall y, c, x :: InGlyphRange(y, c, x) ==>
      tex[AtlasIndex(y, c, x)] == PixelWord(table[c][y], x)
  }

  /** The texture fill of the font initialisation: three nested loops over
      scanline, glyph and pixel. This order visits the atlas indices in
      increasing order, which the invariants record as a filled prefix. */
  method FillAtlas(table: seq<Glyph>) returns (tex: seq<u32>)
    requires WellFormedTable(table)
    ensures IsAtlasOf(tex, table)
  {
    tex := seq(ATLAS_SIZE, _ => 0);
    var y := 0;
    while y < CHARACTER_HEIGHT
      invariant 0 <= y <= CHARACTER_HEIGHT
      invariant |tex| == ATLAS_SIZE
      invariant forall i :: 0 <= i < AtlasIndex(y, 0, 0) ==> tex[i] == ExpectedWord(table, i)
    {
      var c := 0;
      while c < CHARACTER_COUNT
        invariant 0 <= c <= CHARACTER_COUNT
        invariant |tex| == ATLAS_SIZE
        invariant forall i :: 0 <= i < AtlasIndex(y, c, 0) ==> tex[i] == ExpectedWord(table, i)
      {
        var x := 0;
        while x < CHARACTER_WIDTH
          invariant 0 <= x <= CHARACTER_WIDTH
          invariant |tex| == ATLAS_SIZE
          invariant forall i :: 0 <= i < AtlasIndex(y, c, x) ==> tex[i] == ExpectedWord(table, i)
        {
          CoordinatesOfIndex(y, c, x);
          tex := tex[AtlasIndex(y, c, x) := PixelWord(table[c][y], x)];
          x := x + 1;
        }
        c := c + 1;
      }
      y := y + 1;
    }
    forall y, c, x | InGlyphRange(y, c, x)
      ensures tex[AtlasIndex(y, c, x)] == PixelWord(table[c][y], x)
    {
      CoordinatesOfIndex(y, c, x);
    }
  }

  /** Every atlas word, read by its index alone, is the pixel the index names. */
  lemma AtlasWordAt(tex: seq<u32>, table: seq<Glyph>, i: int)
    requires WellFormedTable(table) && IsAtlasOf(tex, table)
    requires 0 <= i < ATLAS_SIZE
    ensures tex[i] == ExpectedWord(table, i)
  {
    var (y, c, x) := AtlasCoordinates(i);
    assert tex[AtlasIndex(y, c, x)] == PixelWord(table[c][y], x);
  }

  /** Scanline `y` of glyph `c` read back from the atlas: a pixel is lit when its word is non-zero. */
  function ReadRow(tex: seq<u32>, y: int, c: int): bv8
    requires |tex| == ATLAS_SIZE
    requires InGlyphRange(y, c, 0)
  {
    Pack(seq(CHARACTER_WIDTH, x requires 0 <= x < CHARACTER_WIDTH => tex[AtlasIndex(y, c, x)] != 0))
  }

  /** The atlas is lossless: every bitmap row of the table can be read back from it. */
  lemma AtlasRoundTrip(tex: seq<u32>, table: seq<Glyph>, y: int, c: int)
    requires WellFormedTable(table) && IsAtlasOf(tex, table)
    requires InGlyphRange(y, c, 0)
    ensures ReadRow(tex, y, c) == table[c][y]
  {
    var lit := seq(CHARACTER_WIDTH, x requires 0 <= x < CHARACTER_WIDTH => tex[AtlasIndex(y, c, x)] != 0);
    forall x | 0 <= x < CHARACTER_WIDTH
      ensures lit[x] == PixelRow(table[c][y])[x]
    {
      assert InGlyphRange(y, c, x);
      PixelRowAt(table[c][y], x);
    }
    assert lit == PixelRow(table[c][y]);
    PackPixelRow(table[c][y]);
  }
}

=== FILE: osd_font.dfy ===
/** The raster font of the on-screen display: its message list, the
    throttled debug line, one frame of drawing, and the `show_fps` switch
    of the module-level entry points. Clock readings are parameters. */
module OsdFont {
  import opened Machine
  import opened OsdAtlas
  import opened OsdText
  import opened OsdMessages

  /** Milliseconds between two refreshes of the debug line. */
  const DEBUG_REFRESH_MS := 500

  datatype RasterFont = RasterFont(messages: seq<Message>, debugTimestamp: u64)

  /** How the debug line is posted: the `Duration::FOREVER` and
      `Color::BLUE` constants of the display header, which is not part of
      this model. */
  datatype FpsStyle = FpsStyle(forever: u32, blue: u32)

  /** `now - last` in unsigned 64-bit arithmetic. */
  function Elapsed(now: u64, last: u64): u64 {
    WrapU64(now - last)
  }

  /** The refresh test on the wrapped difference: more than 500 ms forward,
      or a clock that went back by less than 2^64 - 500 ms. */
  function DebugDue(now: u64, last: u64): (due: bool)
    ensures now >= last ==> (due <==> now - last > DEBUG_REFRESH_MS)
    ensures now < last ==> (due <==> last - now < U64_MODULUS - DEBUG_REFRESH_MS)
  {
    Elapsed(now, last) > DEBUG_REFRESH_MS
  }

  /** The newlines of a list of texts. */
  function NewlineTotal(msgs: seq<Message>): nat
    decreases |msgs|
  {
    if |msgs| == 0 then 0 else NewlineTotal(msgs[..|msgs| - 1]) + Newlines(msgs[|msgs| - 1].text)
  }

  /** The texts drawn in one frame, each starting on the line after the previous one. */
  function DrawAll(msgs: seq<Message>): (r: seq<TextDraw>)
    ensures |r| == |msgs|
    ensures |msgs| > 0 ==> r[|r| - 1].nextLine == NextLine(msgs)
    decreases |msgs|
  {
    if |msgs| == 0 then []
    else
      var prefix := msgs[..|msgs| - 1];
      var last := msgs[|msgs| - 1];
      DrawAll(prefix) + [DrawText(last.text, last.color, NextLine(prefix))]
  }

  /** Message `k` is drawn in its own colour, starting on the line below all
      the texts before it. */
  lemma {:induction false} DrawAllAt(msgs: seq<Message>, k: nat)
    requires k < |msgs|
    ensures DrawAll(msgs)[k] == DrawText(msgs[k].text, msgs[k].color, NextLine(msgs[..k]))
    decreases |msgs|
  {
    var prefix := msgs[..|msgs| - 1];
    var last := msgs[|msgs| - 1];
    var tail := DrawText(last.text, last.color, NextLine(prefix));
    assert DrawAll(msgs) == DrawAll(prefix) + [tail];
    var m := msgs[k];
    if k < |prefix| {
      DrawAllAt(prefix, k);
      assert prefix[k] == m && prefix[..k] == msgs[..k];
      var before := NextLine(msgs[..k]);
      assert DrawAll(prefix)[k] == DrawText(m.text, m.color, before);
      assert DrawAll(msgs)[k] == DrawAll(prefix)[k];
    } else {
      assert k == |msgs| - 1 && m == last;
      assert msgs[..k] == prefix;
      assert DrawAll(msgs)[k] == tail;
    }
  }

  /** The line below the last text drawn: one line per text plus one per newline. */
  function NextLine(msgs: seq<Message>): (line: nat)
    ensures line == |msgs| + NewlineTotal(msgs)
    decreases |msgs|
  {
    if |msgs| == 0 then 0
    else
      var prefix := msgs[..|msgs| - 1];
      var last := msgs[|msgs| - 1];
      DrawText(last.text, last.color, NextLine(prefix)).nextLine
  }

  lemma DrawAllSnoc(msgs: seq<Message>, m: Message)
    ensures DrawAll(msgs + [m]) == DrawAll(msgs) + [DrawText(m.text, m.color, NextLine(msgs))]
    ensures NextLine(msgs + [m]) == DrawText(m.text, m.color, NextLine(msgs)).nextLine
  {
    assert (msgs + [m])[..|msgs + [m]| - 1] == msgs;
  }

  /** Erasing an expired entry at position `i` leaves the prefix before it
      and the eventual survivors unchanged. */
  lemma EraseStep(s: seq<Message>, i: nat, now: u64)
    requires i < |s| && s[i].timestamp < now
    ensures var t := s[..i] + s[i + 1..];
      t[..i] == s[..i] && t[..i] + Survivors(t[i..], now) == s[..i] + Survivors(s[i..], now)
  {
    var t := s[..i] + s[i + 1..];
    assert t[..i] == s[..i] && t[i..] == s[i + 1..];
    SurvivorsStep(s[i..], now);
    assert s[i..][1..] == s[i + 1..];
  }

  /** Stepping over a live entry moves it from the pending survivors into the prefix. */
  lemma KeepStep(s: seq<Message>, i: nat, now: u64)
    requires i < |s| && s[i].timestamp >= now
    ensures s[..i + 1] == s[..i] + [s[i]]
    ensures s[..i + 1] + Survivors(s[i + 1..], now) == s[..i] + Survivors(s[i..], now)
  {
    var rest := Survivors(s[i + 1..], now);
    SurvivorsStep(s[i..], now);
    assert s[i..][1..] == s[i + 1..];
    assert Survivors(s[i..], now) == [s[i]] + rest;
    assert s[..i + 1] == s[..i] + [s[i]];
    assert (s[..i] + [s[i]]) + rest == s[..i] + ([s[i]] + rest);
  }

  /** The erase-or-draw loop of a frame: walks the list, erasing each
      expired message in place and drawing each other one. */
  method ExpireAndDraw(msgs: seq<Message>, now: u64) returns (kept: seq<Message>, texts: seq<TextDraw>)
    ensures kept == Survivors(msgs, now)
    ensures texts == DrawAll(Survivors(msgs, now))
  {
    kept := msgs;
    texts := [];
    var line: nat := 0;
    var i := 0;
    while i < |kept|
      invariant 0 <= i <= |kept|
      invariant kept[..i] + Survivors(kept[i..], now) == Survivors(msgs, now)
      invariant texts == DrawAll(kept[..i]) && line == NextLine(kept[..i])
      decreases |kept| - i
    {
      if kept[i].timestamp < now {
        EraseStep(kept, i, now);
        kept := kept[..i] + kept[i + 1..];
      } else {
        var draw := DrawText(kept[i].text, kept[i].color, line);
        KeepStep(kept, i, now);
        DrawAllSnoc(kept[..i], kept[i]);
        texts := texts + [draw];
        line := draw.nextLine;
        i := i + 1;
      }
    }
    assert kept[..i] == kept;
  }

  /** A frame: refresh the debug line when it is due, then sweep and draw.
      `refreshNow` is the clock reading taken when the debug line is posted. */
  function Draw(font: RasterFont, now: u64, refreshNow: u64, fpsText: seq<u8>, style: FpsStyle)
    : (r: (RasterFont, seq<TextDraw>))
    ensures DebugDue(now, font.debugTimestamp) ==>
      && r.0.debugTimestamp == now
      && r.0.messages == Survivors(AddMessage(font.messages, fpsText, Fps, style.forever, style.blue, refreshNow), now)
    ensures !DebugDue(now, font.debugTimestamp) ==>
      r.0.debugTimestamp == font.debugTimestamp && r.0.messages == Survivors(font.messages, now)
    ensures forall m :: m in r.0.messages ==> m.timestamp >= now
    ensures r.1 == DrawAll(r.0.messages) && |r.1| == |r.0.messages|
  {
    var due := DebugDue(now, font.debugTimestamp);
    var posted := if due then AddMessage(font.messages, fpsText, Fps, style.forever, style.blue, refreshNow)
                  else font.messages;
    var kept := Survivors(posted, now);
    (RasterFont(kept, if due then now else font.debugTimestamp), DrawAll(kept))
  }

  /** A frame keeps at most one message per kind other than `Typeless`. */
  lemma DrawKeepsUniqueKinds(font: RasterFont, now: u64, refreshNow: u64, fpsText: seq<u8>, style: FpsStyle)
    requires UniqueKinds(font.messages)
    ensures UniqueKinds(Draw(font, now, refreshNow, fpsText, style).0.messages)
  {
    var posted := font.messages;
    if DebugDue(now, font.debugTimestamp) {
      AddMessageKeepsUniqueKinds(font.messages, fpsText, Fps, style.forever, style.blue, refreshNow);
      posted := AddMessage(font.messages, fpsText, Fps, style.forever, style.blue, refreshNow);
    }
    SweepKeepsUniqueKinds(posted, now);
  }

  /** After a due refresh whose line has not already expired, the frame
      keeps exactly one FPS message, and it carries the new text. */
  lemma RefreshShowsFpsLine(font: RasterFont, now: u64, refreshNow: u64, fpsText: seq<u8>, style: FpsStyle)
    requires UniqueKinds(font.messages)
    requires DebugDue(now, font.debugTimestamp)
    requires Deadline(refreshNow, style.forever) >= now
    ensures var ms := Draw(font, now, refreshNow, fpsText, style).0.messages;
      exists i :: 0 <= i < |ms| && ms[i] == Message(fpsText, Fps, Deadline(refreshNow, style.forever), style.blue) &&
        forall j :: 0 <= j < |ms| && j != i ==> ms[j].kind != Fps
  {
    var entry := Message(fpsText, Fps, Deadline(refreshNow, style.forever), style.blue);
    var posted := AddMessage(font.messages, fpsText, Fps, style.forever, style.blue, refreshNow);
    if forall j :: 0 <= j < |font.messages| ==> font.messages[j].kind != Fps {
      assert posted[|font.messages|] == entry;
    } else {
      var i :| FirstOfKind(font.messages, Fps, i) && posted == font.messages[i := entry];
      assert posted[i] == entry;
    }
    assert entry in posted;
    SurvivorsSpec(posted, now);
    DrawKeepsUniqueKinds(font, now, refreshNow, fpsText, style);
    var ms := Draw(font, now, refreshNow, fpsText, style).0.messages;
    assert entry in ms;
    OnlyEntryOfKind(ms, entry);
  }

  /** The module-level `AddMessage`: a no-op unless `show_fps` is set. */
  function PostMessage(showFps: bool, font: RasterFont, text: seq<u8>, kind: MessageType, duration: u32, color: u32, now: u64)
    : (r: RasterFont)
    ensures !showFps ==> r == font
    ensures r.debugTimestamp == font.debugTimestamp
    ensures showFps ==> r.messages == AddMessage(font.messages, text, kind, duration, color, now)
  {
    if showFps then font.(messages := AddMessage(font.messages, text, kind, duration, color, now)) else font
  }

  /** The module-level `DrawMessage`: draws nothing and changes nothing unless `show_fps` is set. */
  function DrawMessage(showFps: bool, font: RasterFont, now: u64, refreshNow: u64, fpsText: seq<u8>, style: FpsStyle)
    : (r: (RasterFont, seq<TextDraw>))
    ensures !showFps ==> r == (font, [])
    ensures showFps ==> r == Draw(font, now, refreshNow, fpsText, style)
  {
    if showFps then Draw(font, now, refreshNow, fpsText, style) else (font, [])
  }

  /** Module initialisation: a font with the debug timestamp at 0, its
      atlas filled from the font table, and an empty FPS placeholder posted
      through the `show_fps` switch. */
  method Initialize(showFps: bool, now: u64, style: FpsStyle) returns (font: RasterFont, atlas: seq<u32>)
    ensures font.debugTimestamp == 0
    ensures showFps ==> font.messages == [Message([], Fps, Deadline(now, style.forever), style.blue)]
    ensures !showFps ==> font.messages == []
    ensures IsAtlasOf(atlas, RASTERS)
  {
    atlas := FillAtlas(RASTERS);
    font := PostMessage(showFps, RasterFont([], 0), [], Fps, style.forever, style.blue, now);
  }
}

=== FILE: osd_messages.dfy ===
/** The message list of the on-screen display: adding a message, and the
    sweep that drops the messages whose deadline has passed. */
module OsdMessages {
  import opened Machine

  /** The kind of a message. `Typeless` messages accumulate; a message of any
      other kind replaces the earlier one of the same kind. Only `Typeless`
      and `Fps` are named by the renderer; the other enumerators are `Other`. */
  datatype MessageType = Typeless | Fps | Other(id: nat)

  /** A message and the clock reading, in milliseconds, after which it expires. */
  datatype Message = Message(text: seq<u8>, kind: MessageType, timestamp: u64, color: u32)

  /** `now + duration` in unsigned 64-bit arithmetic. */
  function Deadline(now: u64, duration: u32): (r: u64)
    ensures now + duration < U64_MODULUS ==> r == now + duration
    ensures r < now <==> now + duration >= U64_MODULUS
  {
    WrapU64(now + duration)
  }

  /** At most one entry per kind other than `Typeless`. */
  ghost predicate UniqueKinds(msgs: seq<Message>) {
    forall i, j :: 0 <= i < j < |msgs| && msgs[i].kind != Typeless ==> msgs[i].kind != msgs[j].kind
  }

  ghost predicate FirstOfKind(msgs: seq<Message>, kind: MessageType, i: int) {
    0 <= i < |msgs| && msgs[i].kind == kind &&
    forall j :: 0 <= j < i ==> msgs[j].kind != kind
  }

  /** The position of the first entry of the given kind, if any. */
  function FindKind(msgs: seq<Message>, kind: MessageType): (r: Option<nat>)
    ensures r.Some? ==> FirstOfKind(msgs, kind, r.value)
    ensures r.None? <==> forall j :: 0 <= j < |msgs| ==> msgs[j].kind != kind
  {
    if |msgs| == 0 then None
    else if msgs[0].kind == kind then Some(0)
    else match FindKind(msgs[1..], kind)
      case None => None
      case Some(k) => Some(k + 1)
  }

  /** Adds a message at time `now`: a kind other than `Typeless` that is
      already listed has its first entry overwritten in place; otherwise
      the message is appended. */
  function AddMessage(msgs: seq<Message>, text: seq<u8>, kind: MessageType, duration: u32, color: u32, now: u64)
    : (r: seq<Message>)
    ensures var entry := Message(text, kind, Deadline(now, duration), color);
      (kind == Typeless || forall j :: 0 <= j < |msgs| ==> msgs[j].kind != kind) ==> r == msgs + [entry]
    ensures var entry := Message(text, kind, Deadline(now, duration), color);
      (kind != Typeless && exists j :: 0 <= j < |msgs| && msgs[j].kind == kind) ==>
        exists i :: FirstOfKind(msgs, kind, i) && r == msgs[i := entry]
  {
    var entry := Message(text, kind, Deadline(now, duration), color);
    if kind == Typeless then msgs + [entry]
    else match FindKind(msgs, kind)
      case Some(i) => msgs[i := entry]
      case None => msgs + [entry]
  }

  /** Adding keeps at most one entry per kind other than `Typeless`. */
  lemma AddMessageKeepsUniqueKinds(msgs: seq<Message>, text: seq<u8>, kind: MessageType, duration: u32, color: u32, now: u64)
    requires UniqueKinds(msgs)
    ensures UniqueKinds(AddMessage(msgs, text, kind, duration, color, now))
  {
    var r := AddMessage(msgs, text, kind, duration, color, now);
    if kind != Typeless && exists j :: 0 <= j < |msgs| && msgs[j].kind == kind {
      var i :| FirstOfKind(msgs, kind, i) && r == msgs[i := Message(text, kind, Deadline(now, duration), color)];
      assert forall k :: 0 <= k < |r| ==> r[k].kind == msgs[k].kind;
    }
  }

  /** Re-adding a kind other than `Typeless` never grows the list. */
  lemma ReAddDoesNotGrow(msgs: seq<Message>, kind: MessageType, text1: seq<u8>, text2: seq<u8>,
                         duration1: u32, duration2: u32, color1: u32, color2: u32, now1: u64, now2: u64)
    requires kind != Typeless
    ensures var once := AddMessage(msgs, text1, kind, duration1, color1, now1);
      |AddMessage(once, text2, kind, duration2, color2, now2)| == |once|
  {
    var once := AddMessage(msgs, text1, kind, duration1, color1, now1);
    if forall j :: 0 <= j < |msgs| ==> msgs[j].kind != kind {
      assert once[|msgs|].kind == kind;
    } else {
      var i :| FirstOfKind(msgs, kind, i) && once == msgs[i := Message(text1, kind, Deadline(now1, duration1), color1)];
      assert once[i].kind == kind;
    }
  }

  /** `a` is `b` with some entries removed, order kept. */
  ghost predicate IsSubsequence(a: seq<Message>, b: seq<Message>)
    decreases |b|
  {
    |a| == 0 || (|b| > 0 && if a[0] == b[0] then IsSubsequence(a[1..], b[1..]) else IsSubsequence(a, b[1..]))
  }

  /** The number of entries that have not expired at `now`. */
  function LiveCount(msgs: seq<Message>, now: u64): nat {
    if |msgs| == 0 then 0
    else (if msgs[0].timestamp >= now then 1 else 0) + LiveCount(msgs[1..], now)
  }

  /** The messages left after the sweep at `now`: those whose deadline is not before `now`. */
  function Survivors(msgs: seq<Message>, now: u64): (r: seq<Message>)
    ensures |r| <= |msgs|
    ensures forall k :: 0 <= k < |r| ==> r[k].timestamp >= now
  {
    if |msgs| == 0 then []
    else if msgs[0].timestamp < now then Survivors(msgs[1..], now)
    else [msgs[0]] + Survivors(msgs[1..], now)
  }

  /** The sweep keeps every live entry, drops every expired one, keeps the
      order, and keeps as many entries as are live. */
  lemma {:induction false} SurvivorsSpec(msgs: seq<Message>, now: u64)
    ensures var r := Survivors(msgs, now);
      (forall m :: m in r <==> m in msgs && m.timestamp >= now) &&
      IsSubsequence(r, msgs) && |r| == LiveCount(msgs, now)
    decreases |msgs|
  {
    if |msgs| > 0 {
      SurvivorsSpec(msgs[1..], now);
      var rest := Survivors(msgs[1..], now);
      assert msgs == [msgs[0]] + msgs[1..];
      if msgs[0].timestamp >= now {
        var r := [msgs[0]] + rest;
        assert r[1..] == rest;
      }
    }
  }

  lemma SurvivorsStep(msgs: seq<Message>, now: u64)
    requires |msgs| > 0
    ensures Survivors(msgs, now) == (if msgs[0].timestamp < now then [] else [msgs[0]]) + Survivors(msgs[1..], now)
  {
  }

  /** A subsequence made of live entries has at most as many entries as are live. */
  lemma {:induction false} LiveSubsequenceBound(a: seq<Message>, b: seq<Message>, now: u64)
    requires IsSubsequence(a, b)
    requires forall m :: m in a ==> m.timestamp >= now
    ensures |a| <= LiveCount(b, now)
    decreases |b|
  {
    if |a| > 0 {
      if a[0] == b[0] {
        assert forall m :: m in a[1..] ==> m in a;
        LiveSubsequenceBound(a[1..], b[1..], now);
      } else {
        LiveSubsequenceBound(a, b[1..], now);
      }
    }
  }

  /** The sweep removes exactly the expired entries: the only subsequence
      made of live entries that keeps all of them is `Survivors`. */
  lemma {:induction false} SurvivorsUnique(r: seq<Message>, msgs: seq<Message>, now: u64)
    requires IsSubsequence(r, msgs)
    requires forall m :: m in r ==> m.timestamp >= now
    requires |r| == LiveCount(msgs, now)
    ensures r == Survivors(msgs, now)
    decreases |msgs|
  {
    SurvivorsSpec(msgs, now);
    if |msgs| == 0 {
    } else if |r| == 0 {
      assert |Survivors(msgs, now)| == 0;
    } else {
      assert forall m :: m in r[1..] ==> m in r;
      if msgs[0].timestamp < now {
        assert r[0] != msgs[0] by { assert r[0] in r; }
        SurvivorsUnique(r, msgs[1..], now);
      } else if r[0] == msgs[0] {
        SurvivorsUnique(r[1..], msgs[1..], now);
      } else {
        LiveSubsequenceBound(r, msgs[1..], now);
        assert false;
      }
    }
  }

  /** Sweeping at a later time after sweeping at an earlier one is the same
      as sweeping once at the later time; in particular the sweep is idempotent. */
  lemma {:induction false} SweepLater(msgs: seq<Message>, earlier: u64, later: u64)
    requires earlier <= later
    ensures Survivors(Survivors(msgs, earlier), later) == Survivors(msgs, later)
    decreases |msgs|
  {
    if |msgs| > 0 {
      SweepLater(msgs[1..], earlier, later);
      if msgs[0].timestamp >= earlier {
        assert Survivors(msgs, earlier) == [msgs[0]] + Survivors(msgs[1..], earlier);
        assert Survivors(msgs, earlier)[1..] == Survivors(msgs[1..], earlier);
      }
    }
  }

  /** The sweep keeps at most one entry per kind other than `Typeless`. */
  lemma {:induction false} SweepKeepsUniqueKinds(msgs: seq<Message>, now: u64)
    requires UniqueKinds(msgs)
    ensures UniqueKinds(Survivors(msgs, now))
    decreases |msgs|
  {
    if |msgs| > 0 {
      assert UniqueKinds(msgs[1..]);
      SweepKeepsUniqueKinds(msgs[1..], now);
      var rest := Survivors(msgs[1..], now);
      if msgs[0].timestamp >= now {
        assert Survivors(msgs, now) == [msgs[0]] + rest;
        SurvivorsSpec(msgs[1..], now);
        if msgs[0].kind != Typeless {
          HeadKindUnique(msgs);
        }
        ConsUniqueKinds(msgs[0], rest);
      } else {
        assert Survivors(msgs, now) == rest;
      }
    }
  }

  /** In a list with unique kinds, no entry after the head shares its kind. */
  lemma HeadKindUnique(msgs: seq<Message>)
    requires UniqueKinds(msgs) && |msgs| > 0 && msgs[0].kind != Typeless
    ensures forall m :: m in msgs[1..] ==> m.kind != msgs[0].kind
  {
    forall m | m in msgs[1..]
      ensures m.kind != msgs[0].kind
    {
      var k :| 0 <= k < |msgs[1..]| && msgs[1..][k] == m;
      assert msgs[k + 1] == m;
    }
  }

  /** Putting an entry in front of a list with unique kinds keeps the kinds
      unique when no entry of the list shares its kind. */
  lemma ConsUniqueKinds(head: Message, rest: seq<Message>)
    requires UniqueKinds(rest)
    requires head.kind != Typeless ==> forall m :: m in rest ==> m.kind != head.kind
    ensures UniqueKinds([head] + rest)
  {
    var r := [head] + rest;
    forall i, j | 0 <= i < j < |r| && r[i].kind != Typeless
      ensures r[i].kind != r[j].kind
    {
      if i == 0 {
        assert r[j] in rest;
      } else {
        assert r[i] == rest[i - 1] && r[j] == rest[j - 1];
      }
    }
  }

  /** In a list with unique kinds, an entry of a kind other than `Typeless`
      is the only entry of its kind. */
  lemma OnlyEntryOfKind(msgs: seq<Message>, entry: Message)
    requires UniqueKinds(msgs) && entry in msgs && entry.kind != Typeless
    ensures exists i :: 0 <= i < |msgs| && msgs[i] == entry &&
                        forall j :: 0 <= j < |msgs| && j != i ==> msgs[j].kind != entry.kind
  {
    var i :| 0 <= i < |msgs| && msgs[i] == entry;
    forall j | 0 <= j < |msgs| && j != i
      ensures msgs[j].kind != entry.kind
    {
      if j > i {
        assert msgs[i].kind != msgs[j].kind;
      }
    }
  }
}

=== FILE: osd_text.dfy ===
/** Text rendering of the on-screen display with its geometry abstracted.
    A text is laid out on a grid of character cells: a printable byte fills
    the cell under the cursor with one quad and moves the cursor one cell
    right, a space only moves it right, a newline moves it to the start of
    the next line, and any other byte is dropped without moving it. The
    floats the renderer stores for a vertex are determined by its cell, its
    corner and its texture coordinates, which is what `Vertex` keeps. */
module OsdText {
  import opened Machine
  import opened OsdAtlas

  const NEWLINE: u8 := 10
  const SPACE: u8 := 32

  const VERTICES_PER_GLYPH := 6
  const FLOATS_PER_VERTEX := 4

  /** A byte that is drawn as a glyph; the renderer tests the range on a
      plain `char`, which gives the same answer whether `char` is signed or
      unsigned (see `SignednessIrrelevant`). */
  predicate IsGlyph(c: u8) {
    c != NEWLINE && c != SPACE && CHARACTER_OFFSET <= c < CHARACTER_COUNT + CHARACTER_OFFSET
  }

  lemma SignednessIrrelevant(c: u8)
    ensures var signed := if c < 0x80 then c else c - 0x100;
      (signed < CHARACTER_OFFSET || signed >= CHARACTER_COUNT + CHARACTER_OFFSET) <==>
      (c < CHARACTER_OFFSET || c >= CHARACTER_COUNT + CHARACTER_OFFSET)
  {
  }

  /** A vertex: the character cell (`col`, `line`), the cell corner (`dx`,
      `dy`, 1 meaning right or top), and the texture coordinates (`u`, `v`)
      in glyph widths and glyph heights. */
  datatype Vertex = Vertex(col: nat, line: nat, dx: nat, dy: nat, u: int, v: int)

  /** The two triangles covering the cell of glyph `c`: six vertices in the
      cell, textured from the glyph's column of the atlas, the first at the
      cell's bottom-left corner, the two triangles sharing a diagonal. */
  function GlyphQuad(c: u8, col: nat, line: nat): (r: seq<Vertex>)
    requires IsGlyph(c)
    ensures |r| == VERTICES_PER_GLYPH
    ensures forall k :: 0 <= k < |r| ==>
      WellTextured(r[k]) && r[k].col == col && r[k].line == line && r[k].u - r[k].dx == c - CHARACTER_OFFSET
    ensures r[0].dx == 0 && r[0].dy == 0
    ensures r[3] == r[0] && r[4] == r[2]
  {
    var g := c - CHARACTER_OFFSET;
    [Vertex(col, line, 0, 0, g, 0), Vertex(col, line, 1, 0, g + 1, 0), Vertex(col, line, 1, 1, g + 1, 1),
     Vertex(col, line, 0, 0, g, 0), Vertex(col, line, 1, 1, g + 1, 1), Vertex(col, line, 0, 1, g, 1)]
  }

  /** The glyph bytes of a text, in order. */
  function Glyphs(text: seq<u8>): (r: seq<u8>)
    ensures |r| <= |text|
    ensures forall c :: c in r ==> IsGlyph(c) && c in text
  {
    if |text| == 0 then []
    else (if IsGlyph(text[0]) then [text[0]] else []) + Glyphs(text[1..])
  }

  /** Every glyph byte of the text is drawn, as often as it occurs, and no
      other byte is. */
  lemma {:induction false} GlyphsCount(text: seq<u8>)
    ensures forall c :: multiset(Glyphs(text))[c] == if IsGlyph(c) then multiset(text)[c] else 0
  {
    if |text| > 0 {
      GlyphsCount(text[1..]);
      assert text == [text[0]] + text[1..];
    }
  }

  function Newlines(text: seq<u8>): nat {
    if |text| == 0 then 0
    else (if text[0] == NEWLINE then 1 else 0) + Newlines(text[1..])
  }

  /** A vertex whose texture coordinates select the glyph column it is drawn
      from: `u` is the glyph index plus the corner, `v` is the corner. */
  predicate WellTextured(v: Vertex) {
    0 <= v.u <= CHARACTER_COUNT && v.dx <= 1 && v.dy <= 1 &&
    0 <= v.u - v.dx < CHARACTER_COUNT && v.v == v.dy
  }

  datatype TextLayout = TextLayout(vertices: seq<Vertex>, endLine: nat)

  /** The vertex loop of the text renderer, the cursor starting at cell (`col`, `line`). */
  function Layout(text: seq<u8>, col: nat, line: nat): (r: TextLayout)
    ensures |r.vertices| == VERTICES_PER_GLYPH * |Glyphs(text)|
    ensures r.endLine == line + Newlines(text)
    ensures forall k :: 0 <= k < |r.vertices| ==>
      WellTextured(r.vertices[k]) && line <= r.vertices[k].line <= r.endLine
  {
    if |text| == 0 then TextLayout([], line)
    else
      var c := text[0];
      if c == NEWLINE then Layout(text[1..], 0, line + 1)
      else if c == SPACE then Layout(text[1..], col + 1, line)
      else if c < CHARACTER_OFFSET || c >= CHARACTER_COUNT + CHARACTER_OFFSET then Layout(text[1..], col, line)
      else
        var rest := Layout(text[1..], col + 1, line);
        TextLayout(GlyphQuad(c, col, line) + rest.vertices, rest.endLine)
  }

  /** Reads the glyph bytes back from a vertex buffer: the first vertex of
      every quad carries the glyph index. */
  function DecodeGlyphs(vertices: seq<Vertex>): seq<int>
    decreases |vertices|
  {
    if |vertices| < VERTICES_PER_GLYPH then []
    else [vertices[0].u + CHARACTER_OFFSET] + DecodeGlyphs(vertices[VERTICES_PER_GLYPH..])
  }

  /** The vertex buffer encodes exactly the glyph bytes of the text, in order. */
  lemma {:induction false} LayoutDecodes(text: seq<u8>, col: nat, line: nat)
    ensures DecodeGlyphs(Layout(text, col, line).vertices) == Glyphs(text)
    decreases |text|
  {
    if |text| > 0 {
      var c := text[0];
      if c == NEWLINE {
        LayoutDecodes(text[1..], 0, line + 1);
      } else if c == SPACE {
        LayoutDecodes(text[1..], col + 1, line);
      } else if c < CHARACTER_OFFSET || c >= CHARACTER_COUNT + CHARACTER_OFFSET {
        LayoutDecodes(text[1..], col, line);
      } else {
        var rest := Layout(text[1..], col + 1, line);
        LayoutDecodes(text[1..], col + 1, line);
        var vs := GlyphQuad(c, col, line) + rest.vertices;
        assert vs[VERTICES_PER_GLYPH..] == rest.vertices;
      }
    }
  }

  /** The glyph column of the whole vertex buffer stays inside the atlas. */
  lemma LayoutWithinAtlas(text: seq<u8>, col: nat, line: nat)
    ensures forall v :: v in Layout(text, col, line).vertices ==> 0 <= v.u <= CHARACTER_COUNT
  {
    var vs := Layout(text, col, line).vertices;
    forall v | v in vs
      ensures 0 <= v.u <= CHARACTER_COUNT
    {
      var k :| 0 <= k < |vs| && vs[k] == v;
      assert WellTextured(vs[k]);
    }
  }

  datatype Rgba = Rgba(r: u8, g: u8, b: u8, a: u8)

  /** The colour word is 0xAARRGGBB; the renderer takes each channel with a
      right shift and `& 0xff`, which on an unsigned word is division by a
      power of two followed by a remainder. */
  function Channels(color: u32): (c: Rgba)
    ensures PackColor(c) == color
  {
    ChannelsRepack(color);
    Rgba((color / 0x1_0000) % 0x100, (color / 0x100) % 0x100, color % 0x100, (color / 0x100_0000) % 0x100)
  }

  lemma ChannelsRepack(color: u32)
    ensures PackColor(Rgba((color / 0x1_0000) % 0x100, (color / 0x100) % 0x100, color % 0x100, (color / 0x100_0000) % 0x100)) == color
  {
    var q1 := color / 0x100;
    var q2 := q1 / 0x100;
    var q3 := q2 / 0x100;
    assert color == q1 * 0x100 + color % 0x100;
    assert q1 == q2 * 0x100 + q1 % 0x100;
    assert q2 == q3 * 0x100 + q2 % 0x100;
    assert q2 == color / 0x1_0000;
    assert q3 == color / 0x100_0000;
    assert q3 < 0x100;
  }

  function PackColor(c: Rgba): u32 {
    c.a * 0x100_0000 + c.r * 0x1_0000 + c.g * 0x100 + c.b
  }

  /** Splitting a packed colour gives back its channels. */
  lemma ChannelsOfPack(c: Rgba)
    ensures Channels(PackColor(c)) == c
  {
    var w := PackColor(c);
    var q2 := c.a * 0x100 + c.r;
    var q1 := q2 * 0x100 + c.g;
    assert w == q1 * 0x100 + c.b;
    ByteStep(q1, c.b);
    ByteStep(q2, c.g);
    ByteStep(c.a, c.r);
    assert w / 0x1_0000 == (w / 0x100) / 0x100;
    assert w / 0x100_0000 == ((w / 0x100) / 0x100) / 0x100;
  }

  /** Appending a byte below a number and splitting it off again. */
  lemma ByteStep(q: nat, d: u8)
    ensures (q * 0x100 + d) / 0x100 == q && (q * 0x100 + d) % 0x100 == d
  {
  }

  /** One `glDrawArrays` call: the shadow pass or the text pass. */
  datatype DrawPass = DrawPass(shadow: bool, color: Rgba, vertexCount: nat)

  /** What drawing one text leaves behind: the vertex buffer, the draw
      calls, and the line the next text starts on. */
  datatype TextDraw = TextDraw(vertices: seq<Vertex>, passes: seq<DrawPass>, nextLine: nat)

  /** Draws one text starting at column 0 of `line`. */
  function DrawText(text: seq<u8>, color: u32, line: nat): (r: TextDraw)
    ensures |r.vertices| == VERTICES_PER_GLYPH * |Glyphs(text)|
    ensures FLOATS_PER_VERTEX * |r.vertices| <= FLOATS_PER_VERTEX * VERTICES_PER_GLYPH * |text|
    ensures r.passes == [] <==> Glyphs(text) == []
    ensures r.passes != [] ==>
      var ch := Channels(color);
      r.passes == [DrawPass(true, Rgba(0, 0, 0, ch.a), |r.vertices|), DrawPass(false, ch, |r.vertices|)]
    ensures r.nextLine == line + Newlines(text) + 1
    ensures r.vertices == Layout(text, 0, line).vertices
    ensures DecodeGlyphs(r.vertices) == Glyphs(text)
    ensures forall k :: 0 <= k < |r.vertices| ==> WellTextured(r.vertices[k])
  {
    LayoutDecodes(text, 0, line);
    var layout := Layout(text, 0, line);
    var usage := FLOATS_PER_VERTEX * |layout.vertices|;
    var ch := Channels(color);
    var passes :=
      if usage == 0 then []
      else [DrawPass(true, Rgba(0, 0, 0, ch.a), usage / FLOATS_PER_VERTEX),
            DrawPass(false, ch, usage / FLOATS_PER_VERTEX)];
    TextDraw(layout.vertices, passes, layout.endLine + 1)
  }
}

=== FILE: settings_adapter.dfy ===
/** The list adapter of the in-game settings dialog: the two menus it
    loads, and the save that writes the changed rows back to the input
    overlay, the preference store and the native core when the dialog is
    dismissed. The native core's settings array is an input; the array it
    is sent, the preference writes and the overlay fields are outputs. */
module SettingsAdapter {
  import opened Machine
  import opened SettingsItems

  /** The static fields of the input overlay that the dialog reads and writes. */
  datatype Overlay = Overlay(
    joystickRelative: bool, showRightJoystick: bool, hideInputOverlay: bool,
    controllerScale: i32, controllerAlpha: i32, emulateMotionByTouch: bool)

  datatype OverlayField =
    | JoystickRelativeField | ShowRightJoystickField | HideInputOverlayField
    | ControllerScaleField | ControllerAlphaField | EmulateMotionByTouchField

  /** The keys of the preference store the dialog writes. */
  datatype PrefKey = PrefJoystickRelative | PrefShowRightJoystick | PrefControllerHide | PrefControllerScale | PrefControllerAlpha

  datatype PrefValue = BoolPref(b: bool) | IntPref(i: i32)

  /** The overlay field a setting controls. */
  function FieldOf(s: Setting): Option<OverlayField> {
    match s
    case JoystickRelative => Some(JoystickRelativeField)
    case ShowRightJoystick => Some(ShowRightJoystickField)
    case HideInputOverlay => Some(HideInputOverlayField)
    case ControllerScale => Some(ControllerScaleField)
    case ControllerAlpha => Some(ControllerAlphaField)
    case EmulateMotionByTouch => Some(EmulateMotionByTouchField)
    case _ => None
  }

  /** The preference a setting is persisted under; motion by touch has none. */
  function PrefKeyOf(s: Setting): Option<PrefKey> {
    match s
    case JoystickRelative => Some(PrefJoystickRelative)
    case ShowRightJoystick => Some(PrefShowRightJoystick)
    case HideInputOverlay => Some(PrefControllerHide)
    case ControllerScale => Some(PrefControllerScale)
    case ControllerAlpha => Some(PrefControllerAlpha)
    case _ => None
  }

  function ReadField(o: Overlay, f: OverlayField): PrefValue {
    match f
    case JoystickRelativeField => BoolPref(o.joystickRelative)
    case ShowRightJoystickField => BoolPref(o.showRightJoystick)
    case HideInputOverlayField => BoolPref(o.hideInputOverlay)
    case ControllerScaleField => IntPref(o.controllerScale)
    case ControllerAlphaField => IntPref(o.controllerAlpha)
    case EmulateMotionByTouchField => BoolPref(o.emulateMotionByTouch)
  }

  /** Sets one overlay field, leaving the others as they were. */
  function StoreField(o: Overlay, f: OverlayField, v: PrefValue): (r: Overlay)
    requires v.BoolPref? <==> ReadField(o, f).BoolPref?
    ensures ReadField(r, f) == v
    ensures forall g :: g != f ==> ReadField(r, g) == ReadField(o, g)
  {
    match f
    case JoystickRelativeField => o.(joystickRelative := v.b)
    case ShowRightJoystickField => o.(showRightJoystick := v.b)
    case HideInputOverlayField => o.(hideInputOverlay := v.b)
    case ControllerScaleField => o.(controllerScale := v.i)
    case ControllerAlphaField => o.(controllerAlpha := v.i)
    case EmulateMotionByTouchField => o.(emulateMotionByTouch := v.b)
  }

  /** A field as the integer a row holds: a flag is 1 or 0. */
  function RowValueOf(v: PrefValue): i32 {
    match v
    case BoolPref(b) => if b then 1 else 0
    case IntPref(i) => i
  }

  // The settings submenu: six preference rows, then seven native rows.

  const PREF_ROW_COUNT := 6
  const NATIVE_ROW_COUNT := 7

  const PREF_ROWS: seq<Setting> :=
    [JoystickRelative, ShowRightJoystick, HideInputOverlay, ControllerScale, ControllerAlpha, EmulateMotionByTouch]
  const PREF_NAMES: seq<string> :=
    ["joystick_relative_center", "show_right_joystick", "hide_input_overlay",
     "controller_scale", "controller_alpha", "emulate_motion_by_touch"]
  const PREF_KINDS: seq<ViewKind> := [Checkbox, Checkbox, Checkbox, SeekBar, SeekBar, Checkbox]

  /** Position `i` of the native settings array is shown by row `6 + i`. */
  const NATIVE_ROWS: seq<Setting> :=
    [CoreTicksHack, SkipSlowDraw, TextureLoadHack, ScaleFactor, ScreenLayout, CustomLayout, FrameLimit]
  const NATIVE_NAMES: seq<string> :=
    ["setting_core_ticks_hack", "setting_skip_slow_draw", "setting_texture_load_hack",
     "running_resolution", "running_layout", "running_custom_layout", "running_frame_limit"]
  const NATIVE_KINDS: seq<ViewKind> := [Checkbox, Checkbox, Checkbox, RadioGroup, RadioGroup, Checkbox, SeekBar]

  /** The overlay field that preference row `k` is saved to, by position. */
  function RowField(k: nat): OverlayField
    requires k < PREF_ROW_COUNT
  {
    [JoystickRelativeField, ShowRightJoystickField, HideInputOverlayField,
     ControllerScaleField, ControllerAlphaField, EmulateMotionByTouchField][k]
  }

  /** The preference that preference row `k` is saved to, by position. */
  function RowKey(k: nat): Option<PrefKey>
    requires k < PREF_ROW_COUNT
  {
    [Some(PrefJoystickRelative), Some(PrefShowRightJoystick), Some(PrefControllerHide),
     Some(PrefControllerScale), Some(PrefControllerAlpha), None][k]
  }

  /** The load-time values of the six preference rows. */
  datatype Snapshot = Snapshot(
    joystickRelative: i32, showRightJoystick: i32, hideInputOverlay: i32,
    controllerScale: i32, controllerAlpha: i32, emulateMotionByTouch: i32)

  function SnapshotValue(s: Snapshot, k: nat): i32
    requires k < PREF_ROW_COUNT
  {
    [s.joystickRelative, s.showRightJoystick, s.hideInputOverlay,
     s.controllerScale, s.controllerAlpha, s.emulateMotionByTouch][k]
  }

  /** The adapter: the native array read at load (absent until the settings
      submenu is loaded and after a save), the snapshot, and the rows shown. */
  datatype Adapter = Adapter(running: Option<seq<i32>>, snapshot: Snapshot, items: seq<SettingsItem>)

  datatype AdapterError = NativeIndexOutOfBounds | RowIndexOutOfBounds

  // The main menu.

  const MAIN_MENU: seq<SettingsItem> := [
    SettingsItem(LoadSubmenu, "preferences_settings", Button, MENU_SETTINGS),
    SettingsItem(EditButtons, "emulation_edit_layout", Button, 0),
    SettingsItem(ResetCamera, "menu_emulation_camera", Button, 0),
    SettingsItem(RotateScreen, "emulation_screen_rotation", Button, 0),
    SettingsItem(CheatCode, "menu_cheat_code", Button, 0),
    SettingsItem(MemoryViewer, "emulation_memory_search", Button, 0),
    SettingsItem(EditScreen, "emulation_screen_layout", Button, 0),
    SettingsItem(ExitGame, "emulation_stop_running", Button, 0)
  ]

  /** The main menu: eight buttons, the first opening the settings submenu;
      the native array and snapshot are left as they were. */
  function LoadMainMenu(a: Adapter): (r: Adapter)
    ensures r.running == a.running && r.snapshot == a.snapshot
    ensures |r.items| == 8
    ensures forall k :: 0 <= k < |r.items| ==> r.items[k].kind == Button
    ensures ButtonClick(r.items[0]) == OpenSubmenu(MENU_SETTINGS)
    ensures forall j, k :: 0 <= j < k < |r.items| ==> ButtonClick(r.items[j]) != ButtonClick(r.items[k])
  {
    a.(items := MAIN_MENU)
  }

  /** The row value an overlay field starts as. */
  function SnapshotOf(o: Overlay): (s: Snapshot)
    ensures forall k :: 0 <= k < PREF_ROW_COUNT ==> SnapshotValue(s, k) == RowValueOf(ReadField(o, RowField(k)))
  {
    Snapshot(if o.joystickRelative then 1 else 0, if o.showRightJoystick then 1 else 0,
             if o.hideInputOverlay then 1 else 0, o.controllerScale, o.controllerAlpha,
             if o.emulateMotionByTouch then 1 else 0)
  }

  /** The settings submenu, built from the overlay fields and the native
      array; an array shorter than seven entries is indexed out of bounds. */
  function LoadSettingsMenu(a: Adapter, o: Overlay, native: seq<i32>): (r: Result<Adapter, AdapterError>)
    ensures r.Ok? <==> |native| >= NATIVE_ROW_COUNT
    ensures r.Err? ==> r.error == NativeIndexOutOfBounds
    ensures r.Ok? ==>
      var b := r.value;
      && b.running == Some(native)
      && b.snapshot == SnapshotOf(o)
      && |b.items| == PREF_ROW_COUNT + NATIVE_ROW_COUNT
      && (forall k :: 0 <= k < PREF_ROW_COUNT ==>
            && b.items[k].setting == PREF_ROWS[k] && b.items[k].kind == PREF_KINDS[k]
            && b.items[k].value == SnapshotValue(b.snapshot, k))
      && (forall i :: 0 <= i < NATIVE_ROW_COUNT ==>
            && b.items[PREF_ROW_COUNT + i].setting == NATIVE_ROWS[i] && b.items[PREF_ROW_COUNT + i].kind == NATIVE_KINDS[i]
            && b.items[PREF_ROW_COUNT + i].value == native[i])
  {
    if |native| < NATIVE_ROW_COUNT then Err(NativeIndexOutOfBounds)
    else
      var snap := SnapshotOf(o);
      var prefs := seq(PREF_ROW_COUNT, k requires 0 <= k < PREF_ROW_COUNT =>
        SettingsItem(PREF_ROWS[k], PREF_NAMES[k], PREF_KINDS[k], SnapshotValue(snap, k)));
      var natives := seq(NATIVE_ROW_COUNT, i requires 0 <= i < NATIVE_ROW_COUNT =>
        SettingsItem(NATIVE_ROWS[i], NATIVE_NAMES[i], NATIVE_KINDS[i], native[i]));
      Ok(Adapter(Some(native), snap, prefs + natives))
  }

  /** The row layout the save relies on: after loading, preference row `k`
      shows the setting whose overlay field and preference the save writes
      for position `k`. */
  lemma LoadedLayoutMatchesSave(a: Adapter, o: Overlay, native: seq<i32>, k: nat)
    requires LoadSettingsMenu(a, o, native).Ok?
    requires k < PREF_ROW_COUNT
    ensures var b := LoadSettingsMenu(a, o, native).value;
      FieldOf(b.items[k].setting) == Some(RowField(k)) && PrefKeyOf(b.items[k].setting) == RowKey(k)
  {
  }

  /** The submenu a button opens. */
  function LoadSubMenu(a: Adapter, menu: int, o: Overlay, native: seq<i32>): (r: Result<Adapter, AdapterError>)
    ensures menu == MENU_MAIN ==> r == Ok(LoadMainMenu(a))
    ensures menu == MENU_SETTINGS ==> r == LoadSettingsMenu(a, o, native)
    ensures menu != MENU_MAIN && menu != MENU_SETTINGS ==> r == Ok(a)
  {
    if menu == MENU_MAIN then Ok(LoadMainMenu(a))
    else if menu == MENU_SETTINGS then LoadSettingsMenu(a, o, native)
    else Ok(a)
  }

  /** A user interaction with the row at `pos`. */
  function Edit(a: Adapter, pos: nat, ev: Interaction): (r: Adapter)
    requires pos < |a.items| && HandledBy(a.items[pos].kind, ev)
    ensures r.running == a.running && r.snapshot == a.snapshot && |r.items| == |a.items|
    ensures forall k :: 0 <= k < |a.items| && k != pos ==> r.items[k] == a.items[k]
    ensures r.items[pos].setting == a.items[pos].setting && ValueFits(r.items[pos].kind, r.items[pos].value)
    ensures r.items[pos] == a.items[pos].(value := r.items[pos].value)
    ensures r.items[pos] == Interact(a.items[pos], ev)
  {
    a.(items := a.items[pos := Interact(a.items[pos], ev)])
  }

  // Saving.

  /** The writes of a save so far. */
  datatype PrefEffects = PrefEffects(writes: map<PrefKey, PrefValue>, overlay: Overlay)

  /** What preference row `k` writes when its value differs from the snapshot. */
  function RowPrefValue(k: nat, value: i32): PrefValue
    requires k < PREF_ROW_COUNT
  {
    if RowField(k) == ControllerScaleField || RowField(k) == ControllerAlphaField then IntPref(value)
    else BoolPref(value > 0)
  }

  /** One preference row: unchanged rows write nothing; a changed row sets
      its overlay field and, except motion by touch, its preference. */
  function SaveRow(k: nat, value: i32, snapshot: i32, e: PrefEffects): (r: PrefEffects)
    requires k < PREF_ROW_COUNT
    ensures value == snapshot ==> r == e
    ensures value != snapshot ==> ReadField(r.overlay, RowField(k)) == RowPrefValue(k, value)
    ensures value != snapshot && RowKey(k).Some? ==>
      RowKey(k).value in r.writes && r.writes[RowKey(k).value] == RowPrefValue(k, value)
    ensures forall f :: f != RowField(k) ==> ReadField(r.overlay, f) == ReadField(e.overlay, f)
    ensures forall key :: Some(key) != RowKey(k) ==>
      (key in r.writes <==> key in e.writes) && (key in e.writes ==> r.writes[key] == e.writes[key])
  {
    if value == snapshot then e
    else
      var v := RowPrefValue(k, value);
      var writes := match RowKey(k) case Some(key) => e.writes[key := v] case None => e.writes;
      PrefEffects(writes, StoreField(e.overlay, RowField(k), v))
  }

  /** Preference row `k` differs from the snapshot. */
  predicate RowChanged(rows: seq<SettingsItem>, s: Snapshot, k: nat)
    requires |rows| >= PREF_ROW_COUNT && k < PREF_ROW_COUNT
  {
    rows[k].value != SnapshotValue(s, k)
  }

  /** What a save has done for preference row `k` once rows before `n`
      have been processed: a row not yet reached has written nothing. */
  ghost predicate RowSaved(rows: seq<SettingsItem>, s: Snapshot, o: Overlay, e: PrefEffects, k: nat, n: nat)
    requires |rows| >= PREF_ROW_COUNT && k < PREF_ROW_COUNT
  {
    var changed := k < n && RowChanged(rows, s, k);
    && (RowKey(k).Some? ==> (RowKey(k).value in e.writes <==> changed))
    && (RowKey(k).Some? && changed ==> e.writes[RowKey(k).value] == RowPrefValue(k, rows[k].value))
    && ReadField(e.overlay, RowField(k)) == (if changed then RowPrefValue(k, rows[k].value) else ReadField(o, RowField(k)))
  }

  ghost predicate SavedUpTo(rows: seq<SettingsItem>, s: Snapshot, o: Overlay, e: PrefEffects, n: nat)
    requires |rows| >= PREF_ROW_COUNT
  {
    forall k :: 0 <= k < PREF_ROW_COUNT ==> RowSaved(rows, s, o, e, k, n)
  }

  /** Saving row `n` touches only row `n`'s preference and field. */
  lemma SaveRowStep(rows: seq<SettingsItem>, s: Snapshot, o: Overlay, e: PrefEffects, n: nat)
    requires |rows| >= PREF_ROW_COUNT && n < PREF_ROW_COUNT
    requires SavedUpTo(rows, s, o, e, n)
    ensures SavedUpTo(rows, s, o, SaveRow(n, rows[n].value, SnapshotValue(s, n), e), n + 1)
  {
    var r := SaveRow(n, rows[n].value, SnapshotValue(s, n), e);
    var m := n + 1;
    forall k | 0 <= k < PREF_ROW_COUNT
      ensures RowSaved(rows, s, o, r, k, m)
    {
      assert RowSaved(rows, s, o, e, k, n);
    }
  }

  /** The six preference rows, read at positions 0 to 5. A row's
      preference is written exactly when the row differs from the snapshot,
      with the row's value; every overlay field is its row's value when
      that row changed and keeps its old value otherwise. */
  function SavePrefs(rows: seq<SettingsItem>, s: Snapshot, o: Overlay): (e: PrefEffects)
    requires |rows| >= PREF_ROW_COUNT
    ensures forall k :: 0 <= k < PREF_ROW_COUNT ==>
        && (RowKey(k).Some? ==> (RowKey(k).value in e.writes <==> RowChanged(rows, s, k)))
        && (RowKey(k).Some? && RowChanged(rows, s, k) ==> e.writes[RowKey(k).value] == RowPrefValue(k, rows[k].value))
        && ReadField(e.overlay, RowField(k)) ==
             (if RowChanged(rows, s, k) then RowPrefValue(k, rows[k].value) else ReadField(o, RowField(k)))
  {
    var e := PrefEffects(map[], o);
    assert SavedUpTo(rows, s, o, e, 0);
    SaveRowStep(rows, s, o, e, 0);
    var e0 := SaveRow(0, rows[0].value, SnapshotValue(s, 0), e);
    SaveRowStep(rows, s, o, e0, 1);
    var e1 := SaveRow(1, rows[1].value, SnapshotValue(s, 1), e0);
    SaveRowStep(rows, s, o, e1, 2);
    var e2 := SaveRow(2, rows[2].value, SnapshotValue(s, 2), e1);
    SaveRowStep(rows, s, o, e2, 3);
    var e3 := SaveRow(3, rows[3].value, SnapshotValue(s, 3), e2);
    SaveRowStep(rows, s, o, e3, 4);
    var e4 := SaveRow(4, rows[4].value, SnapshotValue(s, 4), e3);
    SaveRowStep(rows, s, o, e4, 5);
    var e5 := SaveRow(5, rows[5].value, SnapshotValue(s, 5), e4);
    SavedAll(rows, s, o, e5);
    e5
  }

  lemma SavedAll(rows: seq<SettingsItem>, s: Snapshot, o: Overlay, e: PrefEffects)
    requires |rows| >= PREF_ROW_COUNT
    requires SavedUpTo(rows, s, o, e, PREF_ROW_COUNT)
    ensures forall k :: 0 <= k < PREF_ROW_COUNT ==>
        && (RowKey(k).Some? ==> (RowKey(k).value in e.writes <==> RowChanged(rows, s, k)))
        && (RowKey(k).Some? && RowChanged(rows, s, k) ==> e.writes[RowKey(k).value] == RowPrefValue(k, rows[k].value))
        && ReadField(e.overlay, RowField(k)) ==
             (if RowChanged(rows, s, k) then RowPrefValue(k, rows[k].value) else ReadField(o, RowField(k)))
  {
    forall k | 0 <= k < PREF_ROW_COUNT
      ensures RowKey(k).Some? ==> (RowKey(k).value in e.writes <==> RowChanged(rows, s, k))
      ensures RowKey(k).Some? && RowChanged(rows, s, k) ==> e.writes[RowKey(k).value] == RowPrefValue(k, rows[k].value)
      ensures ReadField(e.overlay, RowField(k)) ==
        (if RowChanged(rows, s, k) then RowPrefValue(k, rows[k].value) else ReadField(o, RowField(k)))
    {
      assert RowSaved(rows, s, o, e, k, PREF_ROW_COUNT);
    }
  }

  /** The native array is sent when some position differs from the one
      read at load; the array sent holds the native rows' values. */
  function NativePush(running: seq<i32>, rows: seq<SettingsItem>): (r: Option<seq<i32>>)
    requires |rows| >= |running|
    ensures r.Some? <==> exists i :: 0 <= i < |running| && rows[i].value != running[i]
    ensures r.Some? ==> |r.value| == |running| && forall i :: 0 <= i < |running| ==> r.value[i] == rows[i].value
  {
    var next := seq(|running|, i requires 0 <= i < |running| => rows[i].value);
    if next != running then Some(next) else None
  }

  datatype SaveOutcome = SaveOutcome(
    adapter: Adapter, overlay: Overlay, writes: map<PrefKey, PrefValue>, pushed: Option<seq<i32>>, refreshed: bool)

  /** The save on dismissal. Without a native array from a load it does
      nothing. Otherwise it saves the six preference rows, drops them,
      refreshes the controls, sends the native array if it changed, and
      forgets the native array; rows missing for the native array's length
      are an index error. */
  function SaveSettings(a: Adapter, o: Overlay): (r: Result<SaveOutcome, AdapterError>)
    ensures a.running.None? ==> r == Ok(SaveOutcome(a, o, map[], None, false))
    ensures a.running.Some? ==> (r.Ok? <==> |a.items| >= PREF_ROW_COUNT + |a.running.value|)
    ensures r.Err? ==> r.error == RowIndexOutOfBounds
    ensures a.running.Some? && r.Ok? ==>
      var running := a.running.value;
      var out := r.value;
      && out.adapter == Adapter(None, a.snapshot, a.items[PREF_ROW_COUNT..])
      && out.refreshed
      && (forall k :: 0 <= k < PREF_ROW_COUNT ==>
            && (RowKey(k).Some? ==> (RowKey(k).value in out.writes <==> RowChanged(a.items, a.snapshot, k)))
            && (RowKey(k).Some? && RowChanged(a.items, a.snapshot, k) ==>
                  out.writes[RowKey(k).value] == RowPrefValue(k, a.items[k].value))
            && ReadField(out.overlay, RowField(k)) ==
                 (if RowChanged(a.items, a.snapshot, k) then RowPrefValue(k, a.items[k].value) else ReadField(o, RowField(k))))
      && (out.pushed.Some? <==> exists i :: 0 <= i < |running| && a.items[PREF_ROW_COUNT + i].value != running[i])
      && (out.pushed.Some? ==>
            && |out.pushed.value| == |running|
            && forall i :: 0 <= i < |running| ==> out.pushed.value[i] == a.items[PREF_ROW_COUNT + i].value)
  {
    match a.running
    case None => Ok(SaveOutcome(a, o, map[], None, false))
    case Some(running) =>
      if |a.items| < PREF_ROW_COUNT + |running| then Err(RowIndexOutOfBounds)
      else
        var prefs := SavePrefs(a.items, a.snapshot, o);
        var rows := a.items[PREF_ROW_COUNT..];
        var pushed := NativePush(running, rows);
        Ok(SaveOutcome(Adapter(None, a.snapshot, rows), prefs.overlay, prefs.writes, pushed, true))
  }

  /** A save runs once per load: saving again does nothing. */
  lemma SaveTwiceIsNoop(a: Adapter, o: Overlay)
    requires SaveSettings(a, o).Ok?
    ensures var out := SaveSettings(a, o).value;
      SaveSettings(out.adapter, out.overlay) == Ok(SaveOutcome(out.adapter, out.overlay, map[], None, false))
  {
  }

  /** Loading the settings submenu and saving it untouched writes nothing,
      sends nothing and leaves the overlay as it was. */
  lemma LoadThenSaveChangesNothing(a: Adapter, o: Overlay, native: seq<i32>)
    requires |native| == NATIVE_ROW_COUNT
    ensures var b := LoadSettingsMenu(a, o, native).value;
      var r := SaveSettings(b, o);
      r.Ok? && r.value.writes == map[] && r.value.pushed == None && r.value.overlay == o
  {
    var b := LoadSettingsMenu(a, o, native).value;
    assert forall k :: 0 <= k < PREF_ROW_COUNT ==> !RowChanged(b.items, b.snapshot, k);
    assert forall i :: 0 <= i < |native| ==> b.items[PREF_ROW_COUNT + i].value == native[i];
    SaveUntouched(b, o);
  }

  /** A save with no row changed writes nothing, sends nothing and leaves
      the overlay as it was. */
  lemma SaveUntouched(b: Adapter, o: Overlay)
    requires b.running.Some? && |b.items| == PREF_ROW_COUNT + |b.running.value|
    requires forall k :: 0 <= k < PREF_ROW_COUNT ==> !RowChanged(b.items, b.snapshot, k)
    requires forall i :: 0 <= i < |b.running.value| ==> b.items[PREF_ROW_COUNT + i].value == b.running.value[i]
    ensures var r := SaveSettings(b, o);
      r.Ok? && r.value.writes == map[] && r.value.pushed == None && r.value.overlay == o
  {
    var out := SaveSettings(b, o).value;
    assert RowKey(0) == Some(PrefJoystickRelative) && RowKey(1) == Some(PrefShowRightJoystick);
    assert RowKey(2) == Some(PrefControllerHide) && RowKey(3) == Some(PrefControllerScale);
    assert RowKey(4) == Some(PrefControllerAlpha);
    assert out.writes == map[];
    OverlayByFields(out.overlay, o);
  }

  /** Two overlays that agree on the fields of the six rows are equal. */
  lemma OverlayByFields(o1: Overlay, o2: Overlay)
    requires forall k :: 0 <= k < PREF_ROW_COUNT ==> ReadField(o1, RowField(k)) == ReadField(o2, RowField(k))
    ensures o1 == o2
  {
    assert ReadField(o1, RowField(0)) == ReadField(o2, RowField(0));
    assert ReadField(o1, RowField(1)) == ReadField(o2, RowField(1));
    assert ReadField(o1, RowField(2)) == ReadField(o2, RowField(2));
    assert ReadField(o1, RowField(3)) == ReadField(o2, RowField(3));
    assert ReadField(o1, RowField(4)) == ReadField(o2, RowField(4));
    assert ReadField(o1, RowField(5)) == ReadField(o2, RowField(5));
  }

  /** A native array longer than the seven rows it fills is loaded, but the
      save then runs out of rows. */
  lemma LongNativeArrayFailsOnSave(a: Adapter, o: Overlay, native: seq<i32>)
    requires |native| > NATIVE_ROW_COUNT
    ensures LoadSettingsMenu(a, o, native).Ok?
    ensures SaveSettings(LoadSettingsMenu(a, o, native).value, o) == Err(RowIndexOutOfBounds)
  {
  }

  /** Settings kept position by position. */
  ghost predicate SameLayout(a: seq<SettingsItem>, b: seq<SettingsItem>) {
    |a| == |b| && forall k :: 0 <= k < |a| ==> a[k].setting == b[k].setting
  }

  lemma EditKeepsLayout(a: Adapter, pos: nat, ev: Interaction)
    requires pos < |a.items| && HandledBy(a.items[pos].kind, ev)
    ensures SameLayout(Edit(a, pos, ev).items, a.items)
  {
  }

  /** A session: load the submenu, edit rows in any way that keeps the
      layout, save. Each setting's preference is written, and its overlay
      field set, exactly when its row ends up different from its load-time
      value; native position `i` is sent with the final value of the row
      showing `NATIVE_ROWS[i]`, and only if some such row changed. */
  lemma SessionSave(a: Adapter, o: Overlay, native: seq<i32>, c: Adapter)
    requires |native| == NATIVE_ROW_COUNT
    requires var b := LoadSettingsMenu(a, o, native).value;
      c.running == b.running && c.snapshot == b.snapshot && SameLayout(c.items, b.items)
    ensures SaveSettings(c, o).Ok?
    ensures var out := SaveSettings(c, o).value;
      && (forall k :: 0 <= k < PREF_ROW_COUNT ==>
            var changed := c.items[k].value != RowValueOf(ReadField(o, RowField(k)));
            && c.items[k].setting == PREF_ROWS[k]
            && FieldOf(c.items[k].setting) == Some(RowField(k))
            && (PrefKeyOf(c.items[k].setting).Some? ==>
                  (PrefKeyOf(c.items[k].setting).value in out.writes <==> changed))
            && ReadField(out.overlay, RowField(k)) ==
                 (if changed then RowPrefValue(k, c.items[k].value) else ReadField(o, RowField(k))))
      && (forall i :: 0 <= i < NATIVE_ROW_COUNT ==> c.items[PREF_ROW_COUNT + i].setting == NATIVE_ROWS[i])
      && (out.pushed.Some? <==> exists i :: 0 <= i < NATIVE_ROW_COUNT && c.items[PREF_ROW_COUNT + i].value != native[i])
      && (out.pushed.Some? ==> forall i :: 0 <= i < NATIVE_ROW_COUNT ==> out.pushed.value[i] == c.items[PREF_ROW_COUNT + i].value)
  {
    SessionSavePrefs(a, o, native, c);
    SessionSaveNative(a, o, native, c);
  }

  /** The preference half of `SessionSave`. */
  lemma SessionSavePrefs(a: Adapter, o: Overlay, native: seq<i32>, c: Adapter)
    requires |native| == NATIVE_ROW_COUNT
    requires var b := LoadSettingsMenu(a, o, native).value;
      c.running == b.running && c.snapshot == b.snapshot && SameLayout(c.items, b.items)
    ensures SaveSettings(c, o).Ok?
    ensures var out := SaveSettings(c, o).value;
      forall k :: 0 <= k < PREF_ROW_COUNT ==>
        var changed := c.items[k].value != RowValueOf(ReadField(o, RowField(k)));
        && c.items[k].setting == PREF_ROWS[k]
        && FieldOf(c.items[k].setting) == Some(RowField(k))
        && (PrefKeyOf(c.items[k].setting).Some? ==>
              (PrefKeyOf(c.items[k].setting).value in out.writes <==> changed))
        && ReadField(out.overlay, RowField(k)) ==
             (if changed then RowPrefValue(k, c.items[k].value) else ReadField(o, RowField(k)))
  {
    var b := LoadSettingsMenu(a, o, native).value;
    forall k | 0 <= k < PREF_ROW_COUNT
      ensures c.items[k].setting == PREF_ROWS[k]
      ensures FieldOf(c.items[k].setting) == Some(RowField(k)) && PrefKeyOf(c.items[k].setting) == RowKey(k)
      ensures RowChanged(c.items, c.snapshot, k) <==> c.items[k].value != RowValueOf(ReadField(o, RowField(k)))
    {
      LoadedLayoutMatchesSave(a, o, native, k);
    }
  }

  /** The native half of `SessionSave`. */
  lemma SessionSaveNative(a: Adapter, o: Overlay, native: seq<i32>, c: Adapter)
    requires |native| == NATIVE_ROW_COUNT
    requires var b := LoadSettingsMenu(a, o, native).value;
      c.running == b.running && c.snapshot == b.snapshot && SameLayout(c.items, b.items)
    ensures SaveSettings(c, o).Ok?
    ensures var out := SaveSettings(c, o).value;
      && (forall i :: 0 <= i < NATIVE_ROW_COUNT ==> c.items[PREF_ROW_COUNT + i].setting == NATIVE_ROWS[i])
      && (out.pushed.Some? <==> exists i :: 0 <= i < NATIVE_ROW_COUNT && c.items[PREF_ROW_COUNT + i].value != native[i])
      && (out.pushed.Some? ==> forall i :: 0 <= i < NATIVE_ROW_COUNT ==> out.pushed.value[i] == c.items[PREF_ROW_COUNT + i].value)
  {
    var b := LoadSettingsMenu(a, o, native).value;
    assert c.running == Some(native) && |c.items| == PREF_ROW_COUNT + |native|;
    forall i | 0 <= i < NATIVE_ROW_COUNT
      ensures c.items[PREF_ROW_COUNT + i].setting == NATIVE_ROWS[i]
    {
      assert c.items[PREF_ROW_COUNT + i].setting == b.items[PREF_ROW_COUNT + i].setting;
    }
    var out := SaveSettings(c, o).value;
    assert out.pushed.Some? <==> exists i :: 0 <= i < |native| && c.items[PREF_ROW_COUNT + i].value != native[i];
  }

  /** When the binds fire their listeners, a load followed by a save is not
      a no-op: a frame limit of 37 is shown on the seek bar, snapped to 35
      by its listener, and the save then sends the changed array. */
  lemma BindMovesFrameLimit(a: Adapter, o: Overlay)
    ensures var native: seq<i32> := [0, 0, 0, 0, 0, 0, 37];
      var b := LoadSettingsMenu(a, o, native).value;
      var pos := PREF_ROW_COUNT + 6;
      && b.items[pos].kind == SeekBar
      && BindEvent(b.items[pos]) == ProgressChanged(37)
      && var c := Edit(b, pos, BindEvent(b.items[pos]));
      && c.items[pos].value == 35
      && SaveSettings(c, o).Ok?
      && SaveSettings(c, o).value.pushed == Some([0, 0, 0, 0, 0, 0, 35])
  {
    var native: seq<i32> := [0, 0, 0, 0, 0, 0, 37];
    var b := LoadSettingsMenu(a, o, native).value;
    var pos := PREF_ROW_COUNT + 6;
    BindSnapsFrameLimit(a, o);
    var c := Edit(b, pos, BindEvent(b.items[pos]));
    PushAfterSnap(c, o);
  }

  /** The load-and-bind half of `BindMovesFrameLimit`. */
  lemma BindSnapsFrameLimit(a: Adapter, o: Overlay)
    ensures var native: seq<i32> := [0, 0, 0, 0, 0, 0, 37];
      var b := LoadSettingsMenu(a, o, native).value;
      var pos := PREF_ROW_COUNT + 6;
      && b.items[pos].kind == SeekBar
      && BindEvent(b.items[pos]) == ProgressChanged(37)
      && var c := Edit(b, pos, BindEvent(b.items[pos]));
      && c.running == Some(native)
      && |c.items| == PREF_ROW_COUNT + NATIVE_ROW_COUNT
      && (forall k :: PREF_ROW_COUNT <= k < PREF_ROW_COUNT + 6 ==> c.items[k].value == 0)
      && c.items[pos].value == 35
  {
    var native: seq<i32> := [0, 0, 0, 0, 0, 0, 37];
    var b := LoadSettingsMenu(a, o, native).value;
    var pos := PREF_ROW_COUNT + 6;
    assert b.items[pos].kind == NATIVE_KINDS[6] == SeekBar && b.items[pos].value == 37;
    assert BindEvent(b.items[pos]) == ProgressChanged(37);
    var c := Edit(b, pos, ProgressChanged(37));
    assert SeekValue(SEEK_BAR_MAX, 37) == 35;
    assert c.items[pos] == Interact(b.items[pos], ProgressChanged(37));
    forall k | PREF_ROW_COUNT <= k < PREF_ROW_COUNT + 6
      ensures c.items[k].value == 0
    {
      assert c.items[k] == b.items[PREF_ROW_COUNT + (k - PREF_ROW_COUNT)];
    }
  }

  /** The save half of `BindMovesFrameLimit`. */
  lemma PushAfterSnap(c: Adapter, o: Overlay)
    requires c.running == Some([0, 0, 0, 0, 0, 0, 37])
    requires |c.items| == PREF_ROW_COUNT + NATIVE_ROW_COUNT
    requires forall k :: PREF_ROW_COUNT <= k < PREF_ROW_COUNT + 6 ==> c.items[k].value == 0
    requires c.items[PREF_ROW_COUNT + 6].value == 35
    ensures SaveSettings(c, o).Ok? && SaveSettings(c, o).value.pushed == Some([0, 0, 0, 0, 0, 0, 35])
  {
    var out := SaveSettings(c, o).value;
    assert c.items[PREF_ROW_COUNT + 6].value != c.running.value[6];
    var pushed := out.pushed.value;
    forall i | 0 <= i < 7
      ensures pushed[i] == [0, 0, 0, 0, 0, 0, 35][i]
    {
      assert pushed[i] == c.items[PREF_ROW_COUNT + i].value;
    }
    assert pushed == [0, 0, 0, 0, 0, 0, 35];
  }
}

=== FILE: settings_item.dfy ===
/** The rows of the in-game settings dialog and the value rules of the
    four row views: checkbox, four-way radio group, seek bar and button. */
module SettingsItems {
  import opened Machine

  const MENU_MAIN := 0
  const MENU_SETTINGS := 1

  /** What a row controls: seven settings of the native core, six input
      overlay preferences, and eight actions. */
  datatype Setting =
    | CoreTicksHack | SkipSlowDraw | ScaleFactor | ScreenLayout | TextureLoadHack | CustomLayout | FrameLimit
    | JoystickRelative | HideInputOverlay | ControllerScale | ControllerAlpha | EmulateMotionByTouch | ShowRightJoystick
    | LoadSubmenu | EditButtons | ResetCamera | RotateScreen | CheatCode | MemoryViewer | EditScreen | ExitGame

  /** The integer tag of each setting. */
  function SettingCode(s: Setting): int {
    match s
    case CoreTicksHack => 0
    case SkipSlowDraw => 1
    case ScaleFactor => 2
    case ScreenLayout => 3
    case TextureLoadHack => 4
    case CustomLayout => 5
    case FrameLimit => 6
    case JoystickRelative => 100
    case HideInputOverlay => 101
    case ControllerScale => 102
    case ControllerAlpha => 103
    case EmulateMotionByTouch => 104
    case ShowRightJoystick => 105
    case LoadSubmenu => 201
    case EditButtons => 202
    case ResetCamera => 203
    case RotateScreen => 204
    case CheatCode => 205
    case MemoryViewer => 206
    case EditScreen => 207
    case ExitGame => 208
  }

  /** The setting a tag names, if any. */
  function SettingOfCode(code: int): (r: Option<Setting>)
    ensures r.Some? ==> SettingCode(r.value) == code
  {
    if 0 <= code <= 6 then
      Some([CoreTicksHack, SkipSlowDraw, ScaleFactor, ScreenLayout, TextureLoadHack, CustomLayout, FrameLimit][code])
    else if 100 <= code <= 105 then
      Some([JoystickRelative, HideInputOverlay, ControllerScale, ControllerAlpha, EmulateMotionByTouch, ShowRightJoystick][code - 100])
    else if 201 <= code <= 208 then
      Some([LoadSubmenu, EditButtons, ResetCamera, RotateScreen, CheatCode, MemoryViewer, EditScreen, ExitGame][code - 201])
    else None
  }

  /** No two settings share a tag. */
  lemma SettingCodeRoundTrip(s: Setting)
    ensures SettingOfCode(SettingCode(s)) == Some(s)
  {
  }

  /** The view a row is shown with. */
  datatype ViewKind = Checkbox | RadioGroup | SeekBar | Button

  /** A row of the dialog. `name` is the key of the string resource the
      row is labelled with; the lookup of the label text is not modelled. */
  datatype SettingsItem = SettingsItem(setting: Setting, name: string, kind: ViewKind, value: i32)

  // Checkbox rows.

  /** A checkbox row is shown checked when its value is positive. */
  function CheckboxShown(value: i32): (checked: bool)
    ensures checked <==> value >= 1
    ensures value == 0 || value == 1 ==> (checked <==> value == 1)
  {
    value > 0
  }

  function CheckboxValue(checked: bool): (v: i32)
    ensures v == 0 || v == 1
    ensures CheckboxShown(v) == checked
  {
    if checked then 1 else 0
  }

  /** A value survives being shown and stored back exactly when it is already 0 or 1. */
  lemma CheckboxNormalises(value: i32)
    ensures CheckboxValue(CheckboxShown(value)) == value <==> value == 0 || value == 1
  {
  }

  /** A click toggles the box and stores its new state. */
  function CheckboxClick(checked: bool): (r: (bool, i32))
    ensures r.0 == !checked
    ensures r.1 == 0 || r.1 == 1
    ensures CheckboxShown(r.1) == r.0
  {
    var now := !checked;
    (now, CheckboxValue(now))
  }

  // Radio group rows.

  /** The four buttons of a radio group, and any other view id the group reports. */
  datatype RadioId = Radio0 | Radio1 | Radio2 | Radio3 | OtherView(id: int)

  const RADIO_IDS: seq<RadioId> := [Radio0, Radio1, Radio2, Radio3]

  /** The button a radio row is bound to: its value when that names one of
      the four buttons, the first button otherwise. */
  function RadioBindIndex(value: i32): (index: int)
    ensures 0 <= index < |RADIO_IDS|
    ensures 0 <= value < |RADIO_IDS| ==> index == value
    ensures !(0 <= value < |RADIO_IDS|) ==> index == 0
  {
    if value < 0 || value >= |RADIO_IDS| then 0 else value
  }

  /** The value stored when a button of the group becomes checked. */
  function RadioValue(id: RadioId): (v: i32)
    ensures 0 <= v <= 3
    ensures id.OtherView? ==> v == 0
    ensures forall k :: 0 <= k < |RADIO_IDS| && RADIO_IDS[k] == id ==> v == k
  {
    match id
    case Radio0 => 0
    case Radio1 => 1
    case Radio2 => 2
    case Radio3 => 3
    case OtherView(_) => 0
  }

  /** Checking the button a row is bound to stores the clamped value. */
  lemma RadioBindRoundTrip(value: i32)
    ensures RadioValue(RADIO_IDS[RadioBindIndex(value)]) == (if 0 <= value < 4 then value else 0)
  {
  }

  // Seek bar rows.

  /** The seek bar's maximum, set on every bind. */
  const SEEK_BAR_MAX := 100
  const SEEK_BAR_STEP := 5

  /** The value stored for a reported progress: bars whose maximum exceeds
      99 snap to a multiple of 5 by Java's truncating division. */
  function SeekValue(max: int, progress: i32): (v: i32)
    ensures max > 99 ==> v % SEEK_BAR_STEP == 0
    ensures max > 99 && progress >= 0 ==> 0 <= v <= progress < v + SEEK_BAR_STEP
    ensures max > 99 && progress < 0 ==> v - SEEK_BAR_STEP < progress <= v <= 0
    ensures max <= 99 ==> v == progress
  {
    if max > 99 then JavaDiv(progress, SEEK_BAR_STEP) * SEEK_BAR_STEP else progress
  }

  /** Snapping twice is snapping once. */
  lemma SeekValueIdempotent(progress: i32)
    ensures SeekValue(SEEK_BAR_MAX, SeekValue(SEEK_BAR_MAX, progress)) == SeekValue(SEEK_BAR_MAX, progress)
  {
  }

  // Interaction with a bound row.

  /** What the user can do to a bound row. A checkbox click carries the
      state the box had before it. A seek bar reports progress against the
      maximum its bind sets. */
  datatype Interaction =
    | CheckboxClicked(wasChecked: bool)
    | CheckboxChanged(isChecked: bool)
    | RadioChecked(id: RadioId)
    | ProgressChanged(progress: i32)

  /** The view of each kind has the listener for its own interactions only. */
  predicate HandledBy(kind: ViewKind, ev: Interaction) {
    match ev
    case CheckboxClicked(_) => kind == Checkbox
    case CheckboxChanged(_) => kind == Checkbox
    case RadioChecked(_) => kind == RadioGroup
    case ProgressChanged(_) => kind == SeekBar
  }

  /** The value of a row of each kind after the user has set it. */
  predicate ValueFits(kind: ViewKind, value: i32) {
    match kind
    case Checkbox => value == 0 || value == 1
    case RadioGroup => 0 <= value <= 3
    case SeekBar => value % SEEK_BAR_STEP == 0
    case Button => true
  }

  /** The listeners of the row views: each stores a value fitting its kind
      and changes nothing but the value. */
  function Interact(item: SettingsItem, ev: Interaction): (r: SettingsItem)
    requires HandledBy(item.kind, ev)
    ensures r == item.(value := r.value)
    ensures ValueFits(r.kind, r.value)
  {
    match ev
    case CheckboxClicked(was) => item.(value := CheckboxClick(was).1)
    case CheckboxChanged(isChecked) => item.(value := CheckboxValue(isChecked))
    case RadioChecked(id) => item.(value := RadioValue(id))
    case ProgressChanged(progress) => item.(value := SeekValue(SEEK_BAR_MAX, progress))
  }

  // Binding a row to its view.

  /** The seek bar keeps its progress within 0 and its maximum. */
  function ClampProgress(value: i32): (p: i32)
    ensures 0 <= p <= SEEK_BAR_MAX
    ensures 0 <= value <= SEEK_BAR_MAX ==> p == value
  {
    if value < 0 then 0 else if value > SEEK_BAR_MAX then SEEK_BAR_MAX else value
  }

  /** The listener call a bind triggers when putting the row's value on its
      view changes the view's state: the checkbox is set to `value > 0`,
      the radio group checks the bound button, the seek bar moves to the
      clamped value. */
  function BindEvent(item: SettingsItem): (ev: Interaction)
    requires item.kind != Button
    ensures HandledBy(item.kind, ev)
    ensures item.kind == Checkbox ==> ev.CheckboxChanged? && (ev.isChecked <==> item.value > 0)
    ensures item.kind == RadioGroup ==>
      && ev.RadioChecked? && ev.id in RADIO_IDS
      && (0 <= item.value < |RADIO_IDS| ==> ev.id == RADIO_IDS[item.value])
      && (!(0 <= item.value < |RADIO_IDS|) ==> ev.id == RADIO_IDS[0])
    ensures item.kind == SeekBar ==>
      && ev.ProgressChanged? && 0 <= ev.progress <= SEEK_BAR_MAX
      && (0 <= item.value <= SEEK_BAR_MAX ==> ev.progress == item.value)
      && (item.value < 0 ==> ev.progress == 0)
      && (item.value > SEEK_BAR_MAX ==> ev.progress == SEEK_BAR_MAX)
  {
    match item.kind
    case Checkbox => CheckboxChanged(CheckboxShown(item.value))
    case RadioGroup => RadioChecked(RADIO_IDS[RadioBindIndex(item.value)])
    case SeekBar => ProgressChanged(ClampProgress(item.value))
  }

  /** The values a bind leaves as they are. */
  predicate BindStable(kind: ViewKind, value: i32) {
    match kind
    case Checkbox => value == 0 || value == 1
    case RadioGroup => 0 <= value <= 3
    case SeekBar => 0 <= value <= SEEK_BAR_MAX && value % SEEK_BAR_STEP == 0
    case Button => true
  }

  /** A row comes out of a bind whose listener fires unchanged exactly when
      its value is one the view can show and store back. */
  lemma BindKeepsValueIff(item: SettingsItem)
    requires item.kind != Button
    ensures Interact(item, BindEvent(item)) == item <==> BindStable(item.kind, item.value)
  {
    if item.kind == RadioGroup {
      RadioBindRoundTrip(item.value);
    }
  }

  // Button rows.

  /** The settings a button row can carry. */
  const BUTTON_SETTINGS: set<Setting> :=
    {LoadSubmenu, EditButtons, ResetCamera, RotateScreen, CheatCode, MemoryViewer, EditScreen, ExitGame}

  /** What clicking a button row does. */
  datatype ButtonAction =
    | OpenSubmenu(menu: i32) | ConfigureControls | ResetCameraAction | RotateScreenAction
    | LaunchCheatCode | LaunchMemoryViewer | ConfigureLayout | StopEmulation | Ignored

  function ButtonClick(item: SettingsItem): (a: ButtonAction)
    ensures a.OpenSubmenu? <==> item.setting == LoadSubmenu
    ensures a.OpenSubmenu? ==> a.menu == item.value
    ensures a.Ignored? <==> item.setting !in BUTTON_SETTINGS
    ensures Dismisses(a) <==> item.setting in BUTTON_SETTINGS && item.setting != LoadSubmenu && item.setting != ExitGame
  {
    match item.setting
    case LoadSubmenu => OpenSubmenu(item.value)
    case EditButtons => ConfigureControls
    case ResetCamera => ResetCameraAction
    case RotateScreen => RotateScreenAction
    case CheatCode => LaunchCheatCode
    case MemoryViewer => LaunchMemoryViewer
    case EditScreen => ConfigureLayout
    case ExitGame => StopEmulation
    case _ => Ignored
  }

  /** The actions after which the dialog dismisses itself (and so saves). */
  predicate Dismisses(a: ButtonAction) {
    a.ConfigureControls? || a.ResetCameraAction? || a.RotateScreenAction? ||
    a.LaunchCheatCode? || a.LaunchMemoryViewer? || a.ConfigureLayout?
  }
}
